=== FILE: README.md ===
# LUNAR chat history and streaming, in Dafny

This project models the client core of LUNAR, a single-page chat
application:

- The reader of the chat endpoint's event stream. It carries text over
  between chunks, trims lines, recognises `data: ` lines, stops at
  `[DONE]` and makes one final attempt on the leftover buffer.
- The conversation state of the chat interface:
  - sending a message and streaming the reply into an assistant message;
  - the derived title;
  - the history list and its updates (upsert on save, delete, clear
    today, the today/older split);
  - the browser-local backup;
  - reconciliation with the remote store, which pushes local-only
    conversations once.
- The remote per-user store of conversations: the merge save, delete,
  batch delete, the ordered read with its defaults, and the copy of one
  account's conversations into another.
- The account guard and upgrade path:
  - the module-wide popup flag;
  - the error codes each sign-in call swallows;
  - the `auth/credential-already-in-use` branch of `linkWithGoogle`, which
    snapshots the guest's conversations, switches accounts and copies
    over the conversations the target account lacks.

Modules follow the program's structure:

| module | file | models |
|---|---|---|
| `Base` | base.dfy | `Option`, `filter`, string concatenation |
| `Text` | text.dfy | `trim`, `startsWith`, `split("\n")`, `pop()` |
| `StreamDecoder` | stream_decoder.dfy | the read loop of `handleSubmit` |
| `ChatModel` | chat_model.dfy | messages, conversations, `deriveTitle`, the delta update |
| `LocalBackup` | local_backup.dfy | `localStorage` and its two keys |
| `RemoteStore` | remote_store.dfy | src/lib/firestore.ts |
| `History` | history.dfy | the history effects and handlers of the chat interface |
| `Session` | session.dfy | `handleSubmit`, `flushPendingSave`, `handleResetConversation` |
| `Auth` | auth.dfy | src/lib/auth-context.tsx |

The environment is modelled as parameters:

- **JSON parsing.** Parsing a payload and reading
  `choices[0].delta.content` is the function parameter `extract`. It
  returns `None` when either step throws.
- **Local backup.** A stored entry is either the list it encodes or
  `Unparsable`.
- **Remote store.** It is a map from `(userId, chatId)` to documents.
  Every call into it is a list of writes or a read of that map.
- **Clocks.** `now` is the client clock. `serverNow` is the value
  `serverTimestamp()` resolves to.
- **Ids.** Fresh ids are parameters.
- **Pending save.** Whether the save effect's 800 ms timer is still set
  is the parameter `pending` of the flush.
- **"Is today".** This is a predicate `isToday` on `lastModified`.
- **Auth outcomes.** The outcome of every Firebase auth call is a
  parameter.

### Behaviour worth noting

- **`[DONE]` and the leftover buffer.** `[DONE]` stops reading at the
  chunk where it appears. The unterminated remainder of that same chunk
  still gets the final decode attempt (chat-interface.tsx:352 breaks the
  loop; lines 373-392 run regardless). So a payload cut off after
  `[DONE]` is decoded when it shares the chunk and ignored when it
  arrives later. `StreamDecoder.DoneThenLeftover` shows both cases.
- **Decoding and chunk boundaries.** Without a `[DONE]` the deltas depend
  only on the concatenated text, not on where it was cut
  (`StreamDecoder.Decode`).
- **Response without a body.** This case ends the submission quietly. No
  error is shown and no assistant message is added
  (chat-interface.tsx:321-322). It is not treated as a failure.
- **Titles.** The title is recomputed on every save. It stays the same
  because it depends only on the first user message (`ChatModel.TitleStableUnderAppend`,
  `ChatModel.TitleStableUnderDelta`).
- **Two local backup keys.** The chat interface backs up under
  `lunar_chat_history`, and the account-link path reads
  `lunar-chat-history`. So the link path never sees the interface's
  backup (`LocalBackup.BackupInvisibleToLink`).
- **Account upgrade order.** The upgrade reads the guest's conversations
  before switching accounts. It then copies those whose id the target
  account lacks, with `"Imported Chat"` for an empty title.
- **Account-to-account copy.** `migrateChatsToUser` copies the hydrated
  titles, so an untitled conversation arrives as "New Conversation".
- **Clear today.** It removes every conversation sharing an id with one
  of today's conversations. It leaves exactly the older section only
  when ids are unique (`History.ClearTodayIsOlder`).
- **Removing the active conversation.** Deleting it, or clearing today
  while it is one of today's, resets the interface, and the reset
  flushes a pending save of that same conversation after the delete was
  issued. The document comes back (see "## Findings").

## Model

| member | source | states |
|---|---|---|
| `Text.Trim` | src/components/chat-interface.tsx:349 | the result is a contiguous slice of the input with only white space before and after it, and it neither starts nor ends with white space |
| `Text.TrimIdempotent` | src/components/chat-interface.tsx:373 | trimming an already trimmed buffer changes nothing |
| `Text.JoinSplit` | src/components/chat-interface.tsx:345 | joining the pieces of `split("\n")` with line feeds gives back the text |
| `Text.SplitJoin` | src/components/chat-interface.tsx:345 | splitting pieces that hold no line feed, once joined, gives back the pieces |
| `Text.LinesAppend` | src/components/chat-interface.tsx:342-346 | the complete lines of `x + y` are those of `x` followed by those of the carry-over of `x` plus `y`, and the carry-over agrees |
| `StreamDecoder.Classify` | src/components/chat-interface.tsx:349-352 | a payload taken from a trimmed `data: ` line is never empty and never `[DONE]` |
| `StreamDecoder.DeltaOf` | src/components/chat-interface.tsx:355-356 | a parsed payload contributes one delta exactly when its content is present and non-empty |
| `StreamDecoder.ScanLines` | src/components/chat-interface.tsx:348-369 | the reference scan of complete lines yields at most one delta per line and never an empty one |
| `StreamDecoder.ScanAppend` | src/components/chat-interface.tsx:348-369 | a `[DONE]` in the first run of lines hides the second run; otherwise the deltas of both runs add up in order |
| `StreamDecoder.SkippedLine` | src/components/chat-interface.tsx:350-367 | a non-`data: ` line or a payload that fails to parse is skipped and the next lines still count |
| `StreamDecoder.DoneHidesRest` | src/components/chat-interface.tsx:352 | nothing after a `[DONE]` line contributes a delta |
| `StreamDecoder.FinalAttemptAsLine` | src/components/chat-interface.tsx:372-392 | the leftover buffer is decoded exactly as a complete line would be |
| `StreamDecoder.DecodeWholeWithoutDone` | src/components/chat-interface.tsx:339-392 | with no `[DONE]`, the stream decodes as the plain line split of its whole text, last piece included |
| `StreamDecoder.DonePersists` | src/components/chat-interface.tsx:339-352 | a `[DONE]` reached stays reached however much text follows |
| `StreamDecoder.FeedStep` | src/components/chat-interface.tsx:342-346 | feeding the carry-over buffer plus the new text yields exactly the lines the whole text gained |
| `StreamDecoder.ScanChunkLines` | src/components/chat-interface.tsx:348-369 | the `for` loop with its `break` computes the reference scan of the chunk's lines |
| `StreamDecoder.FeedChunk` | src/components/chat-interface.tsx:342-369 | one loop turn keeps the unterminated remainder as buffer and scans every complete line of buffer plus text |
| `StreamDecoder.ReadTurn` | src/components/chat-interface.tsx:340-346 | a read delivers the next chunk, ends the body, or throws only when the body is exhausted and the read fails |
| `StreamDecoder.ReadLoop` | src/components/chat-interface.tsx:335-370 | the loop reads until the first chunk that reaches `[DONE]` or the end of the body, and its deltas are the scan of the text read |
| `StreamDecoder.Decode` | src/components/chat-interface.tsx:335-392 | the deltas are the decoding of the text read, whatever the chunk boundaries; a transport error leaves the deltas of the complete lines and skips the final attempt |
| `StreamDecoder.DoneThenLeftover` | src/components/chat-interface.tsx:352-375 | a payload cut off after `[DONE]` in the same chunk is still decoded |
| `ChatModel.FreshMessages` | src/components/chat-interface.tsx:406-413 | a fresh conversation holds the greeting alone, from the assistant |
| `ChatModel.FirstUserIndex` | src/components/chat-interface.tsx:123 | the index found is that of the first user message, and none is found only when there is no user message |
| `ChatModel.Truncate` | src/components/chat-interface.tsx:124 | `slice(0, 30)` keeps the first 30 characters, or all of a shorter text |
| `ChatModel.DeriveTitle` | src/components/chat-interface.tsx:122-125 | the title is the first 30 characters of the first user message plus `...`, or "New Conversation" without one |
| `ChatModel.TitleStableUnderAppend` | src/components/chat-interface.tsx:218 | once a user message exists, later messages never change the title |
| `ChatModel.ApplyDelta` | src/components/chat-interface.tsx:357-363 | a delta extends the content of the message with the placeholder's id and leaves every other message as it was |
| `ChatModel.ApplyDeltasConcat` | src/components/chat-interface.tsx:357-363 | applying the deltas one by one is applying their concatenation once |
| `ChatModel.ApplyDeltaTwice` | src/components/chat-interface.tsx:360 | two deltas in a row amount to their concatenation |
| `ChatModel.ApplyEmptyDelta` | src/components/chat-interface.tsx:356 | an empty delta changes nothing, so skipping it is harmless |
| `ChatModel.ApplyDeltaChangesOne` | src/components/chat-interface.tsx:358-362 | with unique message ids, a non-empty delta changes exactly the placeholder |
| `ChatModel.TitleStableUnderDelta` | src/components/chat-interface.tsx:357-363 | streaming into an assistant message never changes the title |
| `ChatModel.IdSet` | src/components/chat-interface.tsx:169 | the id set holds exactly the ids of the list |
| `LocalBackup.ReadChats` | src/components/chat-interface.tsx:128-143 | a missing key or unparsable text reads as the empty list; otherwise the stored list is read |
| `LocalBackup.LoadHistory` | src/components/chat-interface.tsx:129-130 | a readable backup under the history key loads as the list it holds; without one, or with an unreadable one, the history loads empty |
| `LocalBackup.Backup` | src/components/chat-interface.tsx:146-148 | a backup within quota replaces the history key only; a quota error leaves storage unchanged |
| `LocalBackup.LoadAfterBackup` | src/components/chat-interface.tsx:128-148 | a successful backup loads back as the list backed up |
| `LocalBackup.BackupInvisibleToLink` | src/lib/auth-context.tsx:93 | the interface's backup never changes what the account-link path reads |
| `RemoteStore.Apply` | src/lib/firestore.ts:105-125 | a merge save replaces the named fields and keeps the others; a delete removes the document; no other document changes |
| `RemoteStore.ApplyAllUntouched` | src/lib/firestore.ts:133-137 | a document no write targets is left exactly as it was |
| `RemoteStore.StoreMessages` | src/lib/firestore.ts:98-103 | each message is stored with its id, role, content and time in milliseconds, in order |
| `RemoteStore.LoadStoreMessages` | src/lib/firestore.ts:65-68 | hydrating stored messages gives back the messages saved |
| `RemoteStore.StoreLoadMessages` | src/lib/firestore.ts:98-103 | serialising hydrated messages gives back what was stored |
| `RemoteStore.SaveFields` | src/lib/firestore.ts:107-112 | a save writes exactly the title, messages, server timestamp and `lastModified` fields |
| `RemoteStore.SaveChat` | src/lib/firestore.ts:85-115 | a save is one merge write to `users/{userId}/chats/{chatId}` with those four fields |
| `RemoteStore.SaveChats` | src/lib/firestore.ts:176-182 | one save per conversation, in order, each under its own id, title and messages |
| `RemoteStore.ImportTitle` | src/components/chat-interface.tsx:181 | an imported title is never empty: the conversation's own, or "Imported Chat" |
| `RemoteStore.ImportChats` | src/components/chat-interface.tsx:176-185 | one save per local-only conversation, in order, with the fallback title |
| `RemoteStore.MergesKeepFields` | src/lib/firestore.ts:113 | merge saves never remove a document or one of its fields |
| `RemoteStore.SavesBecomeVisible` | src/lib/firestore.ts:105-114 | after a run of saves, each saved conversation is among those its user's ordered query returns |
| `RemoteStore.Hydrate` | src/lib/firestore.ts:60-70 | a missing title reads as "New Conversation", missing messages as none, a missing `lastModified` as 0 |
| `RemoteStore.SaveThenHydrate` | src/lib/firestore.ts:98-114 | a saved conversation reads back with its messages, its title (or the default) and the save's `lastModified` |
| `RemoteStore.DeleteChat` | src/lib/firestore.ts:121-126 | deleting removes that one document, whether or not it exists, and nothing else |
| `RemoteStore.ClearTodayChats` | src/lib/firestore.ts:128-138 | an empty id list issues no write at all; otherwise one delete per listed id |
| `RemoteStore.ClearTodayEffect` | src/lib/firestore.ts:133-137 | the batch removes exactly the listed documents of that user and leaves every other document unchanged |
| `RemoteStore.InsertByLastModified` | src/lib/firestore.ts:55 | inserting keeps the list a permutation of its elements plus the new one, newest first |
| `RemoteStore.QueryChats` | src/lib/firestore.ts:144-159 | the read returns every document of the user that has `lastModified`, exactly once, hydrated, newest first |
| `RemoteStore.MigrateChatsToUser` | src/lib/firestore.ts:165-187 | nothing when the old user has no conversation; otherwise each old conversation the new user lacks is saved under the new user with its hydrated title and messages, and nothing else is written |
| `RemoteStore.MigrationKeepsExisting` | src/lib/firestore.ts:173-182 | a conversation the new user already has is left exactly as it was |
| `History.FindIndex` | src/components/chat-interface.tsx:222 | the index found is the first with the id, and none is found only when the id is absent |
| `History.Upsert` | src/components/chat-interface.tsx:221-233 | a conversation already present is replaced where it stands, all else unchanged; a new one goes in front of the unchanged list |
| `History.UpsertIds` | src/components/chat-interface.tsx:221-233 | after an upsert the conversation is present and the ids are the old ones plus its own |
| `History.UpsertKeepsUnique` | src/components/chat-interface.tsx:225-230 | ids stay unique under upsert |
| `History.UpsertTwice` | src/components/chat-interface.tsx:221-233 | saving the same conversation twice leaves only the second save |
| `History.SaveGuardAsWritten` | src/components/chat-interface.tsx:216 | the guard as written throws exactly on the empty list and skips exactly the lone greeting |
| `History.SaveGuardsAgree` | src/components/chat-interface.tsx:216 | the written and the intended guard agree on every non-empty list and differ on the empty one |
| `History.SaveEffect` | src/components/chat-interface.tsx:214-248 | unless the list is bare, the new list is the upsert of the conversation with its derived title, the backup reads back as that list, and a signed-in user gets exactly one save of it |
| `History.Without` | src/components/chat-interface.tsx:433 | the result holds exactly the conversations whose id is not removed |
| `History.WithoutAppend` | src/components/chat-interface.tsx:450 | removal keeps the relative order of what remains |
| `History.WithoutIdempotent` | src/components/chat-interface.tsx:433 | removing the same ids twice is removing them once |
| `History.DeleteChat` | src/components/chat-interface.tsx:427-437 | the new list is the old one without the conversations with that id; the backup follows; one remote delete when signed in; a reset exactly when it was the active one |
| `History.TodayHistory` | src/components/chat-interface.tsx:461-467 | the today section holds exactly the conversations last modified today |
| `History.OlderHistory` | src/components/chat-interface.tsx:469-475 | the older section holds exactly the others |
| `History.TodayOlderPartition` | src/components/chat-interface.tsx:461-475 | the two sections together are the history, each conversation counted as often as it occurs |
| `History.ClearToday` | src/components/chat-interface.tsx:442-455 | the new list is the old one without every conversation sharing an id with today's; the backup follows; the remote batch lists today's ids; a reset exactly when the active one was among them |
| `History.ClearTodayIsOlder` | src/components/chat-interface.tsx:442-475 | with unique ids, clearing today leaves exactly the older section |
| `History.LocalOnly` | src/components/chat-interface.tsx:169-170 | the local-only conversations are exactly the local ones whose id the snapshot lacks |
| `History.OnRemoteSnapshot` | src/components/chat-interface.tsx:165-199 | the snapshot becomes the history and the backup; local-only conversations are pushed exactly when some exist and the flag was clear; the flag ends set |
| `History.MigrationRunsOnce` | src/components/chat-interface.tsx:173-192 | a second identical snapshot changes nothing and pushes nothing |
| `History.MigrationRetriesAfterFailure` | src/components/chat-interface.tsx:170-189 | after a failed push, a later snapshot holding every id of the first pushes exactly the first attempt's conversations it still lacks, in order, and nothing else |
| `History.MigrationMakesLocalVisible` | src/components/chat-interface.tsx:172-185 | once the pushed writes land, every local conversation is visible in the account |
| `History.OnHistoryStart` | src/components/chat-interface.tsx:154-158 | a non-empty local backup replaces the list; an empty or unreadable one leaves it alone |
| `Session.HttpErrorMessage` | src/components/chat-interface.tsx:316-319 | the error shown is the reply's own text, or "Failed to connect to the void." when there is none |
| `Session.WithUserMessage` | src/components/chat-interface.tsx:292-299 | the user message with the input as content is appended after the unchanged conversation |
| `Session.ThrownMessage` | src/components/chat-interface.tsx:393-396 | the error shown for a thrown value is its message, or "An unknown error occurred." when it has none |
| `Session.Submit` | src/components/chat-interface.tsx:288-400 | blank input or a reply in progress changes nothing; otherwise the input clears, processing ends, an HTTP error shows its message, a rejected request shows the thrown message, a missing body ends quietly, and a body is streamed |
| `Session.StreamReply` | src/components/chat-interface.tsx:324-396 | one assistant message is appended after the untouched conversation; reading stops at the first chunk whose lines reach `[DONE]`, or after the last; the message holds the decoding of the text read, which is the whole body when it has no `[DONE]`; a transport failure keeps the complete lines' deltas and shows the thrown message, or "An unknown error occurred." when it has none |
| `Session.StreamInto` | src/components/chat-interface.tsx:324-363 | the placeholder holds the concatenated deltas and the earlier messages are untouched |
| `Session.FlushPendingSave` | src/components/chat-interface.tsx:267-274 | exactly one save is issued when a save is pending, a user is signed in and the conversation holds more than the greeting; otherwise none |
| `Session.Reset` | src/components/chat-interface.tsx:402-418 | the new conversation holds the greeting alone with a clear input and no error, after flushing the old one's pending save |
| `Session.FlushIsSaveEffect` | src/components/chat-interface.tsx:267-274 | a flushed save is exactly the remote save the save effect issues for the same conversation |
| `Session.ResetIsNotSaved` | src/components/chat-interface.tsx:402-418 | the conversation a reset starts is never saved, since the save effect skips the greeting alone |
| `Session.FinishRemovalAsWritten` | src/components/chat-interface.tsx:437-439 | after a removal that hits the active conversation, the reset runs and a pending save of that conversation is issued after the removal's writes |
| `Session.FinishRemoval` | src/components/chat-interface.tsx:437-439 | the corrected ending: the reset drops the pending save, so the writes are the removal's own |
| `Session.DeleteChatAsWritten` | src/components/chat-interface.tsx:427-440 | the handler as written removes the conversations with that id from the list |
| `Session.DeleteActiveResurrects` | src/components/chat-interface.tsx:437-438 | deleting the active conversation while its save is pending, signed in, leaves its document in the store, whatever the store held |
| `Session.DeleteChatHandler` | src/components/chat-interface.tsx:427-440 | the corrected handler: the list loses the conversations with that id, the backup follows, the active conversation is reset exactly when it was deleted, and the remote writes remove exactly that document and change no other |
| `Session.ClearTodayAsWritten` | src/components/chat-interface.tsx:442-458 | the handler as written removes today's conversations from the list |
| `Session.ClearActiveResurrects` | src/components/chat-interface.tsx:454-455 | clearing today while the active conversation is one of today's and its save is pending leaves its document in the store |
| `Session.ClearTodayHandler` | src/components/chat-interface.tsx:442-458 | the corrected handler: the list loses today's conversations, the backup follows, a reset exactly when the active one was among them, and the remote writes remove exactly today's documents of that user and change no other |
| `Session.ClearTodayRemoves` | src/lib/firestore.ts:128-138 | the batch of "clear today" removes exactly the listed documents of the user, whatever the store held |
| `Auth.SignInWithGoogle` | src/lib/auth-context.tsx:49-66 | with a popup in progress nothing happens; otherwise the flag ends clear and only the two dismissal codes are swallowed |
| `Auth.Step` | src/lib/auth-context.tsx:50-51 | a click opens a popup only when none is in progress; settling clears the flag |
| `Auth.AtMostOnePopup` | src/lib/auth-context.tsx:35 | however clicks and settlements interleave, at most one popup is ever open |
| `Auth.SignInIsGuardRun` | src/lib/auth-context.tsx:49-66 | a sign-in that opens a popup is a click followed by a settlement of the guard; one that is refused is a click that does nothing |
| `Auth.MergeLocalBackup` | src/lib/auth-context.tsx:102-106 | the snapshot comes first, unchanged, followed by exactly the backup entries whose id it lacks |
| `Auth.SnapshotVersionWins` | src/lib/auth-context.tsx:102-106 | when the guest's read succeeds, a backup entry whose id the guest holds is never carried over in a version other than the stored one |
| `Auth.ToMigrate` | src/lib/auth-context.tsx:125-126 | exactly the old conversations whose id the new account lacks |
| `Auth.LinkWithGoogle` | src/lib/auth-context.tsx:72-148 | guarded by the flag and a signed-in user; the flag ends clear; only the in-use branch writes, only after switching to another account; each write saves a guest conversation, or a backup entry whose id the guest's successful read did not return, that the account lacks, under its own id with its messages and the fallback title; and every such conversation is saved |
| `Auth.MigrateToAccount` | src/lib/auth-context.tsx:122-133 | each old conversation the new account lacks is saved under it with a non-empty title, and nothing else |
| `Auth.MigrationCoversOld` | src/lib/auth-context.tsx:82-133 | every guest conversation visible before the switch and absent from the new account is among the migrated ones |
| `Auth.MigratedAreGuestChats` | src/lib/auth-context.tsx:82-133 | every migrated write saves a guest conversation, or a backup entry the guest's read did not return, that the new account lacks, with its own id and messages and the fallback title |
| `Auth.ImportsOfToMigrate` | src/lib/auth-context.tsx:122-133 | the saves of the conversations to migrate target only ids the new account lacks, with non-empty titles, and cover all of them |

## Left out

- JSON parsing and serialising are not modelled as text. Stream payloads
  go through the `extract` parameter, and local backup entries are the
  lists they encode or `Unparsable`.
- `TextDecoder` is not modelled. Chunks arrive as already-decoded text.
- The 800 ms debounce and its cancellation are not modelled, since the
  model has no notion of time passing.
- History.SaveEffect: the remote save is issued at once, with the clock
  reading used for `lastModified`. A later save within 800 ms would
  cancel it in the program.
- RemoteStore.ImportChats: one clock reading stamps `lastModified` on
  every write of a batch. The same holds for `RemoteStore.MigrateChatsToUser`
  and `Auth.MigrateToAccount`. In the program each `saveChatToFirestore`
  call reads `Date.now()` itself (firestore.ts:111), so the stamps of one
  batch can differ by a few milliseconds.
- History.SaveEffect: the local entry's `lastModified`
  (chat-interface.tsx:223) and the remote one (firestore.ts:111) are taken
  as equal. The program reads the clock separately for each.
- Promise concurrency is not modelled. The writes of a migration or
  import form an ordered list that lands in full. A partial failure of
  `Promise.all` is not represented beyond the migration flag being
  cleared.
- Calendar arithmetic for "today" is not modelled. It depends on the
  local time zone, so it is the parameter `isToday`.
- History.TodayOlderPartition: one `isToday` stands for every
  `new Date()` reading of both filters (chat-interface.tsx:463 and 471).
  The program reads the clock again for each conversation in each
  filter. If a render crosses midnight, a conversation from the day just
  ended can land in both sections, or in neither. So the partition, and
  `History.ClearTodayIsOlder` with it, holds only for one reading of the
  clock.
- ChatModel.Truncate: counts characters. JavaScript's `slice` counts
  UTF-16 code units, so a title can differ when the text holds characters
  outside the Basic Multilingual Plane.
- RemoteStore.QueryChats: conversations with equal `lastModified` come
  back in an unspecified order. The store's tie-break by document id and
  its ordering across value types are not modelled.
- RemoteStore.Hydrate: a stored field of an unexpected type reads as
  its default. For `messages` that differs from the program: a truthy
  non-array value makes the `.map` of firestore.ts:65 throw, failing the
  whole read, where the model reads it as no messages. A wrong-typed
  `chat_title` or `lastModified` is passed through by the program but
  reads as the default in the model.
- The server route is not part of this model, nor is rendering or
  scrolling.
- `loadConversation` and `handleExit` are not modelled beyond the
  `flushPendingSave` they call. Nor are `signInAsGuest`, `signOut`,
  `onAuthStateChanged` and id generation.
- The subscription's error path is not modelled. It only sets a banner
  and keeps the list loaded from the local backup.
- The migration flag lives in the component and is not reset on sign-out
  in the program. Remounting is not modelled.

## Findings

| source | as written | input that shows it | evidently intended | confidence | as-written member | corrected member |
|---|---|---|---|---|---|---|
| src/components/chat-interface.tsx:216 | `messages.length <= 1 && messages[0].role === "lunar"` reads `messages[0]` whenever the list has at most one message | an empty message list, as loaded for a stored conversation whose document or backup entry has no messages: `messages[0]` is `undefined` and reading `role` throws inside the save effect | a conversation with no messages, like one holding only the greeting, is simply not saved | not executed; medium | `History.SaveGuardAsWritten` (with `History.SaveGuardsAgree`) | `History.SkipSave`, used by `History.SaveEffect` |
| src/components/chat-interface.tsx:437-438 | `handleDeleteChat` of the active conversation calls `handleResetConversation`, whose `flushPendingSave` (lines 403 and 268-272) saves that conversation after its delete was issued | signed in, delete the active conversation within 800 ms of its last change, for instance right after a reply finishes streaming: the merge save recreates the document just deleted, and it comes back on the next snapshot | a conversation being deleted is not saved again | not executed; medium | `Session.DeleteChatAsWritten` (with `Session.DeleteActiveResurrects`) | `Session.DeleteChatHandler` |
| src/components/chat-interface.tsx:454-455 | `handleClearAll` resets when the active conversation was among today's, and the reset's `flushPendingSave` (lines 403 and 268-272) saves it after the batch delete | signed in, clear today within 800 ms of the last change to the active conversation: its document is recreated after the batch removes it | every conversation of today is gone from the store | not executed; medium | `Session.ClearTodayAsWritten` (with `Session.ClearActiveResurrects`) | `Session.ClearTodayHandler` |

=== FILE: auth.dfy ===
/**
 Signing in and upgrading a guest account (src/lib/auth-context.tsx): the
 module-wide `popupInProgress` flag that keeps a second popup from opening,
 the error codes each call swallows, and the `auth/credential-already-in-use`
 branch of `linkWithGoogle`, which snapshots the guest's conversations,
 switches to the existing account and copies over those it lacks.

 Every Firebase call is a parameter giving its outcome.
 */
module Auth {
  import opened Base
  import opened ChatModel
  import opened LocalBackup
  import opened RemoteStore

  const CancelledPopupRequest: string := "auth/cancelled-popup-request"
  const PopupClosedByUser: string := "auth/popup-closed-by-user"
  const PopupBlocked: string := "auth/popup-blocked"
  const CredentialAlreadyInUse: string := "auth/credential-already-in-use"

  /** The two states of `popupInProgress`. */
  datatype PopupFlag = Idle | Busy

  /** How a Firebase call ends: normally, or by throwing an error whose
      `code` may be missing. */
  datatype CallResult = Succeeded | Failed(code: Option<string>)

  /** How one of the exported calls ends for its caller. */
  datatype Outcome = Returned | Threw(code: Option<string>)

  /** Codes `signInWithGoogle` swallows: the user closed or superseded the
      popup. */
  predicate SignInSwallows(code: Option<string>) {
    code == Some(CancelledPopupRequest) || code == Some(PopupClosedByUser)
  }

  /** Codes `linkWithGoogle` swallows outside the credential-in-use branch:
      those of sign-in, and a blocked popup. */
  predicate LinkSwallows(code: Option<string>) {
    SignInSwallows(code) || code == Some(PopupBlocked)
  }

  /** `signInWithGoogle()`: with a popup already in progress, nothing
      happens; otherwise a popup opens, the flag is cleared however it ends,
      and only the two dismissal codes are swallowed. */
  function SignInWithGoogle(flag: PopupFlag, popup: CallResult): (r: (PopupFlag, bool, Outcome))
    ensures flag == Busy ==> r == (Busy, false, Returned)
    ensures flag == Idle ==> r.0 == Idle && r.1
    ensures flag == Idle ==> (r.2 == Returned <==> popup.Succeeded? || SignInSwallows(popup.code))
    ensures flag == Idle && r.2.Threw? ==> r.2.code == popup.code
  {
    if flag == Busy then (Busy, false, Returned)
    else
      var outcome := match popup
        case Succeeded => Returned
        case Failed(code) => if SignInSwallows(code) then Returned else Threw(code);
      (Idle, true, outcome)
  }

  /** The guard as a two-state machine over user actions: a click starts a
      popup only when none is in progress, and a popup settling clears the
      flag. `open` counts popups started and not yet settled. */
  datatype Event = Click | Settle

  datatype GuardState = GuardState(flag: PopupFlag, open: nat)

  function Step(s: GuardState, e: Event): (t: GuardState)
    ensures e == Click && s.flag == Busy ==> t == s
    ensures e == Click && s.flag == Idle ==> t == GuardState(Busy, s.open + 1)
    ensures e == Settle && s.open > 0 ==> t == GuardState(Idle, s.open - 1)
    ensures e == Settle && s.open == 0 ==> t == s
  {
    match e
    case Click => if s.flag == Busy then s else GuardState(Busy, s.open + 1)
    case Settle => if s.open > 0 then GuardState(Idle, s.open - 1) else s
  }

  function Run(s: GuardState, events: seq<Event>): GuardState
    decreases |events|
  {
    if |events| == 0 then s else Run(Step(s, events[0]), events[1..])
  }

  /** The flag is set exactly while a popup is open. */
  predicate GuardInvariant(s: GuardState) {
    s.open <= 1 && (s.open == 1 <==> s.flag == Busy)
  }

  /** Whatever the clicks and however they interleave with popups settling,
      at most one popup is ever open. */
  lemma {:induction false} AtMostOnePopup(s: GuardState, events: seq<Event>)
    requires GuardInvariant(s)
    ensures GuardInvariant(Run(s, events)) && Run(s, events).open <= 1
    decreases |events|
  {
    if |events| > 0 {
      AtMostOnePopup(Step(s, events[0]), events[1..]);
    }
  }

  /** `signInWithGoogle` moves the flag as the guard machine does: a call
      that opens its popup is a click followed by that popup settling; a
      call refused by the flag is a click that changes nothing. */
  lemma SignInIsGuardRun(flag: PopupFlag, popup: CallResult, open: nat)
    requires GuardInvariant(GuardState(flag, open))
    ensures var r := SignInWithGoogle(flag, popup);
      (r.1 ==> Run(GuardState(flag, open), [Click, Settle]) == GuardState(r.0, open))
      && (!r.1 ==> Step(GuardState(flag, open), Click) == GuardState(r.0, open))
  {
    var events: seq<Event> := [Click, Settle];
    assert events[1..] == [Settle];
    assert events[1..][1..] == [];
  }

  /** The guest's conversations with those of the local backup the snapshot
      lacks appended: snapshot entries come first and unchanged. */
  function MergeLocalBackup(snapshot: seq<Chat>, local: seq<Chat>): (r: seq<Chat>)
    ensures |r| >= |snapshot| && r[..|snapshot|] == snapshot
    ensures forall c :: c in r[|snapshot|..] <==> c in local && c.id !in Ids(snapshot)
  {
    var extra := Filter(local, (c: Chat) => c.id !in Ids(snapshot));
    forall c | c in local && c.id !in Ids(snapshot)
      ensures c in extra
    {
      var i :| 0 <= i < |local| && local[i] == c;
    }
    forall c | c in extra
      ensures c in local && c.id !in Ids(snapshot)
    {
      var i :| 0 <= i < |extra| && extra[i] == c;
    }
    assert (snapshot + extra)[|snapshot|..] == extra;
    snapshot + extra
  }

  /** How the switch to the existing account ends: signed in as `uid`, or by
      an error that `signInWithCredential` (or the fallback popup) throws. */
  datatype Switch = Switched(uid: string) | SwitchFailed(code: Option<string>)

  /** A conversation the credential-in-use branch may carry over from the
      guest: a visible document of the guest, hydrated, when the guest's read
      succeeded, or an entry of the backup under the link key whose id that
      read did not return (the snapshot's version wins). */
  predicate GuestChat(store: Store, oldUid: string, oldReadFails: bool, ls: LocalStorage, c: Chat) {
    || (!oldReadFails && c.id in VisibleIds(store, oldUid) && (oldUid, c.id) in store
        && c == Hydrate(c.id, store[(oldUid, c.id)]))
    || (c in ReadChats(ls, LinkBackupKey) && (oldReadFails || c.id !in VisibleIds(store, oldUid)))
  }

  /** When the guest's read succeeds, a backup entry whose id the guest's
      store holds is never carried over in a version that differs from the
      stored document. */
  lemma SnapshotVersionWins(store: Store, oldUid: string, ls: LocalStorage, c: Chat)
    requires c.id in VisibleIds(store, oldUid) && (oldUid, c.id) in store
    requires c != Hydrate(c.id, store[(oldUid, c.id)])
    ensures !GuestChat(store, oldUid, false, ls, c)
  {
  }

  /** Write `w` saves a guest conversation the account `newUid` lacks, with
      its own id and messages and the fallback title. */
  ghost predicate ImportOfGuestChat(store: Store, oldUid: string, oldReadFails: bool, ls: LocalStorage, newUid: string,
                                    now: int, serverNow: int, w: Write) {
    exists c :: GuestChat(store, oldUid, oldReadFails, ls, c) && c.id !in VisibleIds(store, newUid)
      && w == SaveChat(newUid, c.id, ImportTitle(c.title), c.messages, now, serverNow)
  }

  /** The outcome of `linkWithGoogle()`. */
  datatype LinkResult = LinkResult(flag: PopupFlag, popupShown: bool, outcome: Outcome, writes: seq<Write>)

  /** `oldChats.filter((c) => !existingIds.has(c.id))`: the conversations
      the switch carries over. */
  function ToMigrate(oldChats: seq<Chat>, existingIds: set<string>): (r: seq<Chat>)
    ensures forall c :: c in r <==> c in oldChats && c.id !in existingIds
  {
    var r := Filter(oldChats, (c: Chat) => c.id !in existingIds);
    forall c | c in oldChats && c.id !in existingIds
      ensures c in r
    {
      var i :| 0 <= i < |oldChats| && oldChats[i] == c;
    }
    forall c | c in r
      ensures c in oldChats && c.id !in existingIds
    {
      var i :| 0 <= i < |r| && r[i] == c;
    }
    r
  }

  /** The link found the credential already in use and the switch landed on
      another account than the guest's. */
  predicate SwitchedAway(flag: PopupFlag, currentUid: Option<string>, link: CallResult, switch: Switch) {
    flag == Idle && currentUid.Some? && link.Failed? && link.code == Some(CredentialAlreadyInUse)
    && switch.Switched? && switch.uid != currentUid.value
  }

  /** `linkWithGoogle()`. With no signed-in user or a popup in progress it
      does nothing. Otherwise the link popup opens and the flag is cleared
      however the call ends. On `auth/credential-already-in-use` the guest's
      conversations are read (a failed read counts as none) and merged with
      the local backup stored under the link key; after switching to another
      account that has at least one of them, those whose id it lacks are
      saved under it with the fallback title. A failure reading the new
      account's conversations is swallowed and writes nothing; a failed
      switch is rethrown. Other codes are swallowed as `LinkSwallows` says. */
  method LinkWithGoogle(flag: PopupFlag, currentUid: Option<string>, link: CallResult, store: Store,
                        oldReadFails: bool, ls: LocalStorage, switch: Switch, newReadFails: bool,
                        now: int, serverNow: int)
    returns (r: LinkResult)
    ensures flag == Busy || currentUid.None? ==> r == LinkResult(flag, false, Returned, [])
    ensures flag == Idle && currentUid.Some? ==> r.flag == Idle && r.popupShown
    ensures link.Succeeded? ==> r.outcome == Returned && r.writes == []
    ensures link.Failed? && link.code != Some(CredentialAlreadyInUse) && flag == Idle && currentUid.Some? ==>
      r.writes == [] && (r.outcome == Returned <==> LinkSwallows(link.code))
    ensures link.Failed? && link.code == Some(CredentialAlreadyInUse) && flag == Idle && currentUid.Some? ==>
      (r.outcome == Returned <==> switch.Switched?)
    ensures r.writes != [] ==> switch.Switched? && currentUid.Some? && switch.uid != currentUid.value && !newReadFails
    ensures forall i :: 0 <= i < |r.writes| ==>
      r.writes[i].SetMerge? && r.writes[i].uid == switch.uid
      && r.writes[i].chatId !in VisibleIds(store, switch.uid)
      && TitleField in r.writes[i].fields && r.writes[i].fields[TitleField].Str? && r.writes[i].fields[TitleField].s != []
    ensures forall i :: 0 <= i < |r.writes| ==>
      ImportOfGuestChat(store, currentUid.value, oldReadFails, ls, switch.uid, now, serverNow, r.writes[i])
    ensures SwitchedAway(flag, currentUid, link, switch) && !newReadFails && !oldReadFails ==>
      forall id :: id in VisibleIds(store, currentUid.value) && id !in VisibleIds(store, switch.uid) ==>
        (switch.uid, id) in Targets(r.writes)
    ensures SwitchedAway(flag, currentUid, link, switch) && !newReadFails ==>
      forall c :: c in ReadChats(ls, LinkBackupKey) && c.id !in VisibleIds(store, switch.uid)
        ==> (switch.uid, c.id) in Targets(r.writes)
  {
    if flag == Busy || currentUid.None? {
      return LinkResult(flag, false, Returned, []);
    }
    var oldUid := currentUid.value;
    match link {
      case Succeeded =>
        r := LinkResult(Idle, true, Returned, []);
      case Failed(code) =>
        if code == Some(CredentialAlreadyInUse) {
          var snapshot: seq<Chat> := [];
          if !oldReadFails {
            snapshot := QueryChats(store, oldUid);
          }
          var oldChats := MergeLocalBackup(snapshot, ReadChats(ls, LinkBackupKey));
          match switch {
            case SwitchFailed(switchCode) =>
              r := LinkResult(Idle, true, Threw(switchCode), []);
            case Switched(newUid) =>
              var writes := [];
              if newUid != oldUid && |oldChats| > 0 && !newReadFails {
                writes := MigrateToAccount(store, newUid, oldChats, now, serverNow);
                MigrationCoversOld(store, oldUid, newUid, oldReadFails, snapshot, ls, oldChats, writes, now, serverNow);
                MigratedAreGuestChats(store, oldUid, newUid, oldReadFails, snapshot, ls, oldChats, writes, now, serverNow);
              }
              r := LinkResult(Idle, true, Returned, writes);
          }
        } else {
          var outcome := if LinkSwallows(code) then Returned else Threw(code);
          r := LinkResult(Idle, true, outcome, []);
        }
    }
  }

  /** Step 3 of the credential-in-use branch: read the new account's
      conversations and save each old one whose id it lacks. */
  method MigrateToAccount(store: Store, newUid: string, oldChats: seq<Chat>, now: int, serverNow: int)
    returns (writes: seq<Write>)
    ensures writes == ImportChats(newUid, ToMigrate(oldChats, VisibleIds(store, newUid)), now, serverNow)
    ensures forall i :: 0 <= i < |writes| ==>
      writes[i].SetMerge? && writes[i].uid == newUid && writes[i].chatId !in VisibleIds(store, newUid)
      && TitleField in writes[i].fields && writes[i].fields[TitleField].Str? && writes[i].fields[TitleField].s != []
    ensures forall c :: c in oldChats && c.id !in VisibleIds(store, newUid) ==> (newUid, c.id) in Targets(writes)
  {
    var existing := QueryChats(store, newUid);
    var existingIds := IdSet(existing);
    assert existingIds == VisibleIds(store, newUid);
    writes := ImportChats(newUid, ToMigrate(oldChats, existingIds), now, serverNow);
    ImportsOfToMigrate(store, newUid, oldChats, writes, now, serverNow);
  }

  /** The saves of the conversations to migrate target only ids the new
      account lacks, each with a non-empty title, and cover all of them. */
  lemma ImportsOfToMigrate(store: Store, newUid: string, oldChats: seq<Chat>, writes: seq<Write>, now: int, serverNow: int)
    requires writes == ImportChats(newUid, ToMigrate(oldChats, VisibleIds(store, newUid)), now, serverNow)
    ensures forall i :: 0 <= i < |writes| ==>
      writes[i].SetMerge? && writes[i].uid == newUid && writes[i].chatId !in VisibleIds(store, newUid)
      && TitleField in writes[i].fields && writes[i].fields[TitleField].Str? && writes[i].fields[TitleField].s != []
    ensures forall c :: c in oldChats && c.id !in VisibleIds(store, newUid) ==> (newUid, c.id) in Targets(writes)
  {
    var toMigrate := ToMigrate(oldChats, VisibleIds(store, newUid));
    forall i | 0 <= i < |writes|
      ensures writes[i].chatId !in VisibleIds(store, newUid)
    {
      assert toMigrate[i] in toMigrate;
    }
    forall c | c in oldChats && c.id !in VisibleIds(store, newUid)
      ensures (newUid, c.id) in Targets(writes)
    {
      assert c in toMigrate;
      var j :| 0 <= j < |toMigrate| && toMigrate[j] == c;
      assert Targets(writes)[j] == (newUid, c.id);
    }
  }

  /** Every guest conversation visible before the switch and absent from
      the new account is among the migrated ones. */
  lemma MigrationCoversOld(store: Store, oldUid: string, newUid: string, oldReadFails: bool, snapshot: seq<Chat>,
                           ls: LocalStorage, oldChats: seq<Chat>, writes: seq<Write>, now: int, serverNow: int)
    requires !oldReadFails ==> forall id :: id in Ids(snapshot) <==> id in VisibleIds(store, oldUid)
    requires oldChats == MergeLocalBackup(snapshot, ReadChats(ls, LinkBackupKey))
    requires forall c :: c in oldChats && c.id !in VisibleIds(store, newUid) ==> (newUid, c.id) in Targets(writes)
    ensures !oldReadFails ==> forall id :: id in VisibleIds(store, oldUid) && id !in VisibleIds(store, newUid) ==>
      (newUid, id) in Targets(writes)
    ensures forall c :: c in ReadChats(ls, LinkBackupKey) && c.id !in VisibleIds(store, newUid) ==>
      (newUid, c.id) in Targets(writes)
  {
    forall id | !oldReadFails && id in VisibleIds(store, oldUid) && id !in VisibleIds(store, newUid)
      ensures (newUid, id) in Targets(writes)
    {
      var i :| 0 <= i < |snapshot| && Ids(snapshot)[i] == id;
      assert oldChats[i] == snapshot[i];
      assert oldChats[i] in oldChats;
    }
    forall c | c in ReadChats(ls, LinkBackupKey) && c.id !in VisibleIds(store, newUid)
      ensures (newUid, c.id) in Targets(writes)
    {
      if c.id in Ids(snapshot) {
        var i :| 0 <= i < |snapshot| && Ids(snapshot)[i] == c.id;
        assert oldChats[i] == snapshot[i];
        assert oldChats[i] in oldChats;
      } else {
        assert c in oldChats[|snapshot|..];
      }
    }
  }

  /** Every migrated write saves one of the guest's conversations, read
      from the store or from the backup under the link key. */
  lemma MigratedAreGuestChats(store: Store, oldUid: string, newUid: string, oldReadFails: bool, snapshot: seq<Chat>,
                              ls: LocalStorage, oldChats: seq<Chat>, writes: seq<Write>, now: int, serverNow: int)
    requires oldReadFails ==> snapshot == []
    requires forall i :: 0 <= i < |snapshot| ==>
      (oldUid, snapshot[i].id) in store && snapshot[i] == Hydrate(snapshot[i].id, store[(oldUid, snapshot[i].id)])
    requires forall i :: 0 <= i < |snapshot| ==> snapshot[i].id in VisibleIds(store, oldUid)
    requires !oldReadFails ==> forall id :: id in VisibleIds(store, oldUid) ==> id in Ids(snapshot)
    requires oldChats == MergeLocalBackup(snapshot, ReadChats(ls, LinkBackupKey))
    requires writes == ImportChats(newUid, ToMigrate(oldChats, VisibleIds(store, newUid)), now, serverNow)
    ensures forall i :: 0 <= i < |writes| ==>
      ImportOfGuestChat(store, oldUid, oldReadFails, ls, newUid, now, serverNow, writes[i])
  {
    var toMigrate := ToMigrate(oldChats, VisibleIds(store, newUid));
    forall i | 0 <= i < |writes|
      ensures ImportOfGuestChat(store, oldUid, oldReadFails, ls, newUid, now, serverNow, writes[i])
    {
      var c := toMigrate[i];
      assert c in toMigrate;
      var j :| 0 <= j < |oldChats| && oldChats[j] == c;
      if j < |snapshot| {
        assert oldChats[j] == snapshot[j];
        assert Ids(snapshot)[j] == c.id;
      } else {
        assert c in oldChats[|snapshot|..];
        assert c.id !in Ids(snapshot);
      }
      assert GuestChat(store, oldUid, oldReadFails, ls, c);
    }
  }
}

=== FILE: base.dfy ===
/**
 Small shared vocabulary: an optional value, order-preserving filtering of a
 sequence (JavaScript's `Array.prototype.filter`) and concatenation of a
 sequence of sequences.
 */
module Base {

  /** A value that may be absent (`undefined`/`null` in the program). */
  datatype Option<T> = None | Some(value: T)

  /** The elements of `s` that satisfy `keep`, in their original order. */
  function Filter<T>(s: seq<T>, keep: T -> bool): (r: seq<T>)
    ensures |r| <= |s|
    ensures forall i :: 0 <= i < |r| ==> r[i] in s && keep(r[i])
    ensures forall i :: 0 <= i < |s| && keep(s[i]) ==> s[i] in r
  {
    if |s| == 0 then []
    else
      var rest := Filter(s[1..], keep);
      assert forall i :: 1 <= i < |s| ==> s[i] == s[1..][i - 1];
      if keep(s[0]) then [s[0]] + rest else rest
  }

  /** Filtering distributes over concatenation: relative order is preserved. */
  lemma {:induction false} FilterAppend<T>(a: seq<T>, b: seq<T>, keep: T -> bool)
    ensures Filter(a + b, keep) == Filter(a, keep) + Filter(b, keep)
  {
    if |a| == 0 {
      assert a + b == b;
    } else {
      assert (a + b)[1..] == a[1..] + b;
      FilterAppend(a[1..], b, keep);
    }
  }

  /** Filtering with a predicate every element satisfies changes nothing. */
  lemma {:induction false} FilterAll<T>(s: seq<T>, keep: T -> bool)
    requires forall i :: 0 <= i < |s| ==> keep(s[i])
    ensures Filter(s, keep) == s
  {
    if |s| > 0 {
      FilterAll(s[1..], keep);
    }
  }

  /** Filtering twice with the same predicate is filtering once. */
  lemma FilterIdempotent<T>(s: seq<T>, keep: T -> bool)
    ensures Filter(Filter(s, keep), keep) == Filter(s, keep)
  {
    var r := Filter(s, keep);
    forall i | 0 <= i < |r|
      ensures keep(r[i])
    {
      assert r[i] in r;
    }
    FilterAll(r, keep);
  }

  /** Filtering with a weaker predicate and then a stronger one is filtering
      with the stronger one alone. */
  lemma {:induction false} FilterNarrow<T>(s: seq<T>, weak: T -> bool, strong: T -> bool)
    requires forall x :: strong(x) ==> weak(x)
    ensures Filter(Filter(s, weak), strong) == Filter(s, strong)
  {
    if |s| > 0 {
      FilterNarrow(s[1..], weak, strong);
      var rest := Filter(s[1..], weak);
      if weak(s[0]) {
        assert ([s[0]] + rest)[0] == s[0];
        assert ([s[0]] + rest)[1..] == rest;
      }
    }
  }

  /** A predicate and its complement split a sequence into two parts that
      together hold every element exactly as often as the sequence does. */
  lemma {:induction false} FilterPartition<T>(s: seq<T>, keep: T -> bool, drop: T -> bool)
    requires forall x :: drop(x) == !keep(x)
    ensures multiset(Filter(s, keep)) + multiset(Filter(s, drop)) == multiset(s)
  {
    if |s| > 0 {
      FilterPartition(s[1..], keep, drop);
      assert s == [s[0]] + s[1..];
    }
  }

  /** All the sequences of `ss`, one after the other. */
  function Concat<T>(ss: seq<seq<T>>): (r: seq<T>)
    ensures |ss| == 1 ==> r == ss[0]
  {
    if |ss| == 0 then [] else Concat(ss[..|ss| - 1]) + ss[|ss| - 1]
  }

  lemma {:induction false} ConcatAppend<T>(a: seq<seq<T>>, b: seq<seq<T>>)
    ensures Concat(a + b) == Concat(a) + Concat(b)
  {
    if |b| == 0 {
      assert a + b == a;
    } else {
      assert (a + b)[..|a + b| - 1] == a + b[..|b| - 1];
      ConcatAppend(a, b[..|b| - 1]);
    }
  }

  /** Cutting a sequence of sequences anywhere and concatenating the parts
      gives the concatenation of the whole. */
  lemma ConcatSplitAt<T>(ss: seq<seq<T>>, k: nat)
    requires k <= |ss|
    ensures Concat(ss) == Concat(ss[..k]) + Concat(ss[k..])
  {
    var head, more := ss[..k], ss[k..];
    assert ss == head + more;
    ConcatAppend(head, more);
  }
}

=== FILE: chat_model.dfy ===
/**
 Messages and conversations as the chat interface holds them
 (src/components/chat-interface.tsx): the derived title of a conversation
 and the application of one streamed delta to the message being written.
 */
module ChatModel {
  import opened Base

  /** `"user" | "lunar"`. */
  datatype Role = User | Lunar

  /** One message; `timestamp` is the time value of its `Date`, in
      milliseconds since the epoch. */
  datatype Message = Message(id: string, role: Role, content: string, timestamp: int)

  /** One conversation as held in the history list and the local backup. */
  datatype Chat = Chat(id: string, title: string, messages: seq<Message>, lastModified: int)

  /** The seed assistant message of a fresh conversation. */
  const GreetingText: string := "The void is silent. What seek you from the stars?"
  /** The title of a conversation without a user message. */
  const UntitledTitle: string := "New Conversation"
  /** How many leading characters of the first user message form the title. */
  const TitleLength: nat := 30
  const Ellipsis: string := "..."

  /** The message list of a fresh conversation: the greeting alone. */
  function FreshMessages(greetingId: string, now: int): (r: seq<Message>)
    ensures |r| == 1 && r[0].role == Lunar && r[0].content == GreetingText
  {
    [Message(greetingId, Lunar, GreetingText, now)]
  }

  /** `msgs.find((m) => m.role === "user")`, as the index found. */
  function FirstUserIndex(msgs: seq<Message>): (r: Option<nat>)
    ensures r.Some? ==> r.value < |msgs| && msgs[r.value].role == User
    ensures r.Some? ==> forall j :: 0 <= j < r.value ==> msgs[j].role != User
    ensures r.None? ==> forall j :: 0 <= j < |msgs| ==> msgs[j].role != User
  {
    if |msgs| == 0 then None
    else if msgs[0].role == User then Some(0)
    else match FirstUserIndex(msgs[1..])
      case None => None
      case Some(i) => Some(i + 1)
  }

  /** `s.slice(0, n)`. */
  function Truncate(s: string, n: nat): (r: string)
    ensures |r| == if |s| <= n then |s| else n
    ensures r == s[..|r|]
  {
    if |s| <= n then s else s[..n]
  }

  /** `deriveTitle`: the first 30 characters of the first user message
      followed by an ellipsis, which is added even when nothing was cut off;
      "New Conversation" when there is no user message. */
  function DeriveTitle(msgs: seq<Message>): (title: string)
    ensures (forall j :: 0 <= j < |msgs| ==> msgs[j].role != User) ==> title == UntitledTitle
    ensures forall i :: 0 <= i < |msgs| && msgs[i].role == User && (forall j :: 0 <= j < i ==> msgs[j].role != User) ==>
      var c := msgs[i].content;
      |title| == (if |c| <= TitleLength then |c| else TitleLength) + |Ellipsis|
      && title == c[..|title| - |Ellipsis|] + Ellipsis
  {
    match FirstUserIndex(msgs)
    case None => UntitledTitle
    case Some(i) => Truncate(msgs[i].content, TitleLength) + Ellipsis
  }

  /** Messages added after a user message never change the title. */
  lemma TitleStableUnderAppend(msgs: seq<Message>, more: seq<Message>)
    requires exists i :: 0 <= i < |msgs| && msgs[i].role == User
    ensures DeriveTitle(msgs + more) == DeriveTitle(msgs)
  {
    var i := FirstUserIndex(msgs).value;
    assert (msgs + more)[i] == msgs[i];
    assert forall j :: 0 <= j < i ==> (msgs + more)[j] == msgs[j];
  }

  /** The update applied for one streamed delta: the message whose id is the
      placeholder's gets `delta` appended to its content; every other message
      is kept as it is. */
  function ApplyDelta(msgs: seq<Message>, targetId: string, delta: string): (r: seq<Message>)
    ensures |r| == |msgs|
    ensures forall i :: 0 <= i < |msgs| && msgs[i].id != targetId ==> r[i] == msgs[i]
    ensures forall i :: 0 <= i < |msgs| && msgs[i].id == targetId ==>
      r[i].id == msgs[i].id && r[i].role == msgs[i].role && r[i].timestamp == msgs[i].timestamp
      && r[i].content == msgs[i].content + delta
  {
    if |msgs| == 0 then []
    else
      var m := msgs[0];
      var head := if m.id == targetId then m.(content := m.content + delta) else m;
      [head] + ApplyDelta(msgs[1..], targetId, delta)
  }

  /** Applying the deltas of a stream one after the other, in order. */
  function ApplyDeltas(msgs: seq<Message>, targetId: string, deltas: seq<string>): seq<Message>
  {
    if |deltas| == 0 then msgs
    else ApplyDelta(ApplyDeltas(msgs, targetId, deltas[..|deltas| - 1]), targetId, deltas[|deltas| - 1])
  }

  /** Deltas are applied in the order decoded: applying them one by one is
      applying their concatenation at once. */
  lemma {:induction false} ApplyDeltasConcat(msgs: seq<Message>, targetId: string, deltas: seq<string>)
    ensures ApplyDeltas(msgs, targetId, deltas) == ApplyDelta(msgs, targetId, Concat(deltas))
  {
    if |deltas| == 0 {
      ApplyEmptyDelta(msgs, targetId);
    } else {
      var init := deltas[..|deltas| - 1];
      var last := deltas[|deltas| - 1];
      ApplyDeltasConcat(msgs, targetId, init);
      ApplyDeltaTwice(msgs, targetId, Concat(init), last);
    }
  }

  /** Two deltas in a row amount to their concatenation. */
  lemma ApplyDeltaTwice(msgs: seq<Message>, targetId: string, a: string, b: string)
    ensures ApplyDelta(ApplyDelta(msgs, targetId, a), targetId, b) == ApplyDelta(msgs, targetId, a + b)
  {
    var r := ApplyDelta(ApplyDelta(msgs, targetId, a), targetId, b);
    var q := ApplyDelta(msgs, targetId, a + b);
    assert |r| == |q|;
    forall i | 0 <= i < |r|
      ensures r[i] == q[i]
    {
      var m := msgs[i];
      if m.id == targetId {
        assert m.content + a + b == m.content + (a + b);
        assert r[i] == Message(m.id, m.role, m.content + a + b, m.timestamp);
        assert q[i] == Message(m.id, m.role, m.content + (a + b), m.timestamp);
      }
    }
  }

  /** An empty delta changes nothing. */
  lemma ApplyEmptyDelta(msgs: seq<Message>, targetId: string)
    ensures ApplyDelta(msgs, targetId, []) == msgs
  {
    var r := ApplyDelta(msgs, targetId, []);
    forall i | 0 <= i < |r|
      ensures r[i] == msgs[i]
    {
      var m := msgs[i];
      if m.id == targetId {
        assert m.content + [] == m.content;
        assert r[i] == Message(m.id, m.role, m.content, m.timestamp);
      }
    }
  }

  /** Every id occurs at most once. */
  predicate UniqueMessageIds(msgs: seq<Message>) {
    forall i, j :: 0 <= i < j < |msgs| ==> msgs[i].id != msgs[j].id
  }

  /** No message of the list has the id `id`. */
  predicate FreshMessageId(msgs: seq<Message>, id: string) {
    forall i :: 0 <= i < |msgs| ==> msgs[i].id != id
  }

  /** With unique message ids, a non-empty delta changes exactly one message
      when the placeholder is present, and none otherwise. */
  lemma ApplyDeltaChangesOne(msgs: seq<Message>, targetId: string, delta: string)
    requires UniqueMessageIds(msgs) && delta != []
    ensures var r := ApplyDelta(msgs, targetId, delta);
      forall i :: 0 <= i < |msgs| ==> (r[i] != msgs[i] <==> msgs[i].id == targetId)
  {
    var r := ApplyDelta(msgs, targetId, delta);
    forall i | 0 <= i < |msgs| && msgs[i].id == targetId
      ensures r[i] != msgs[i]
    {
      assert |r[i].content| == |msgs[i].content| + |delta|;
    }
  }

  /** Streaming into an assistant message never changes the title. */
  lemma TitleStableUnderDelta(msgs: seq<Message>, targetId: string, delta: string)
    requires forall i :: 0 <= i < |msgs| && msgs[i].id == targetId ==> msgs[i].role == Lunar
    ensures DeriveTitle(ApplyDelta(msgs, targetId, delta)) == DeriveTitle(msgs)
  {
    var r := ApplyDelta(msgs, targetId, delta);
    assert forall i :: 0 <= i < |msgs| ==> r[i].role == msgs[i].role;
    assert forall i :: 0 <= i < |msgs| && msgs[i].role == User ==> r[i] == msgs[i];
    match FirstUserIndex(msgs)
    case None =>
      assert forall j :: 0 <= j < |r| ==> r[j].role != User;
    case Some(i) =>
      assert r[i] == msgs[i];
      assert forall j :: 0 <= j < i ==> r[j].role != User;
  }

  /** The ids of a list of conversations, in order. */
  function Ids(chats: seq<Chat>): (r: seq<string>)
    ensures |r| == |chats|
    ensures forall i :: 0 <= i < |chats| ==> r[i] == chats[i].id
  {
    seq(|chats|, i requires 0 <= i < |chats| => chats[i].id)
  }

  /** Every conversation id occurs at most once. */
  predicate UniqueIds(chats: seq<Chat>) {
    forall i, j :: 0 <= i < j < |chats| ==> chats[i].id != chats[j].id
  }

  /** The ids of a list, as a set. */
  function IdSet(chats: seq<Chat>): (r: set<string>)
    ensures forall x :: x in r <==> x in Ids(chats)
  {
    set i | 0 <= i < |chats| :: Ids(chats)[i]
  }
}

=== FILE: history.dfy ===
/**
 The history list of the chat interface (src/components/chat-interface.tsx):
 the upsert of the active conversation in the save effect, delete by id,
 "clear today" with the today/older split, and the reaction to a remote
 snapshot that pushes local-only conversations once.

 "Is today" is calendar arithmetic on the local clock; it is a parameter
 `isToday` applied to a conversation's `lastModified`.
 */
module History {
  import opened Base
  import opened ChatModel
  import opened LocalBackup
  import opened RemoteStore

  /** `history.findIndex((chat) => chat.id === id)`, as an option. */
  function FindIndex(history: seq<Chat>, id: string): (r: Option<nat>)
    ensures r.Some? ==> r.value < |history| && history[r.value].id == id
    ensures r.Some? ==> forall j :: 0 <= j < r.value ==> history[j].id != id
    ensures r.None? ==> forall j :: 0 <= j < |history| ==> history[j].id != id
    ensures r.None? <==> id !in Ids(history)
  {
    if |history| == 0 then None
    else if history[0].id == id then Some(0)
    else
      var rest := FindIndex(history[1..], id);
      match rest
      case None => None
      case Some(i) => Some(i + 1)
  }

  /** The history update of the save effect: a conversation already in the
      list is replaced where it stands, anything else goes to the front. */
  function Upsert(history: seq<Chat>, chat: Chat): (r: seq<Chat>)
    ensures chat.id in Ids(history) ==> |r| == |history|
    ensures chat.id in Ids(history) ==> forall i :: 0 <= i < |history| ==>
      r[i] == (if i == FindIndex(history, chat.id).value then chat else history[i])
    ensures chat.id !in Ids(history) ==> |r| == |history| + 1 && r[0] == chat && r[1..] == history
  {
    match FindIndex(history, chat.id)
    case Some(i) => history[i := chat]
    case None => [chat] + history
  }

  /** After an upsert the conversation is in the list, and the ids are the
      old ones plus its own. */
  lemma UpsertIds(history: seq<Chat>, chat: Chat)
    ensures chat in Upsert(history, chat)
    ensures forall x :: x in Ids(Upsert(history, chat)) <==> x in Ids(history) || x == chat.id
  {
    if chat.id in Ids(history) {
      UpsertInPlace(history, chat);
    } else {
      var r := Upsert(history, chat);
      assert r[0] == chat;
      assert Ids(r) == [chat.id] + Ids(history);
    }
  }

  /** Replacing a conversation where it stands keeps the id list as it was. */
  lemma UpsertInPlace(history: seq<Chat>, chat: Chat)
    requires chat.id in Ids(history)
    ensures chat in Upsert(history, chat)
    ensures Ids(Upsert(history, chat)) == Ids(history)
  {
    var k := FindIndex(history, chat.id).value;
    var r := history[k := chat];
    assert Upsert(history, chat) == r;
    assert r[k] == chat;
    forall i | 0 <= i < |r|
      ensures Ids(r)[i] == Ids(history)[i]
    {
    }
  }

  /** Ids stay unique under upsert. */
  lemma UpsertKeepsUnique(history: seq<Chat>, chat: Chat)
    requires UniqueIds(history)
    ensures UniqueIds(Upsert(history, chat))
  {
    var r := Upsert(history, chat);
    if chat.id !in Ids(history) {
      forall i | 1 <= i < |r|
        ensures r[i].id != chat.id
      {
        assert r[i] == history[i - 1];
        assert Ids(history)[i - 1] == r[i].id;
      }
    }
  }

  /** Saving the same conversation twice leaves only the second save. */
  lemma UpsertTwice(history: seq<Chat>, a: Chat, b: Chat)
    requires a.id == b.id
    ensures Upsert(Upsert(history, a), b) == Upsert(history, b)
  {
    var h := Upsert(history, a);
    if a.id in Ids(history) {
      var k := FindIndex(history, a.id).value;
      assert h == history[k := a];
      assert FindIndex(h, b.id) == Some(k) by {
        var f := FindIndex(h, b.id);
        assert h[k].id == b.id;
        assert forall j :: 0 <= j < k ==> h[j].id != b.id;
        assert Ids(h)[k] == b.id;
        assert f.value == k;
      }
    } else {
      assert h[0].id == b.id;
      assert Ids(h)[0] == b.id;
      assert FindIndex(h, b.id) == Some(0);
    }
  }

  /** `messages.length <= 1 && messages[0].role === "lunar"`, the guard of
      the save effect as written: on an empty list `messages[0]` is
      `undefined` and reading its `role` throws. */
  datatype SaveGuard = Crash | Skip | Proceed

  function SaveGuardAsWritten(msgs: seq<Message>): (g: SaveGuard)
    ensures g == Crash <==> |msgs| == 0
    ensures g == Skip <==> |msgs| == 1 && msgs[0].role == Lunar
  {
    if |msgs| <= 1 then
      if |msgs| == 0 then Crash
      else if msgs[0].role == Lunar then Skip else Proceed
    else Proceed
  }

  /** The guard as evidently intended: a conversation holding nothing but
      the greeting, or nothing at all, is not saved. */
  predicate SkipSave(msgs: seq<Message>) {
    |msgs| == 0 || (|msgs| == 1 && msgs[0].role == Lunar)
  }

  /** The two guards agree on every non-empty list. */
  lemma SaveGuardsAgree(msgs: seq<Message>)
    ensures |msgs| > 0 ==> (SaveGuardAsWritten(msgs) == Skip <==> SkipSave(msgs))
    ensures |msgs| > 0 ==> (SaveGuardAsWritten(msgs) == Proceed <==> !SkipSave(msgs))
    ensures SaveGuardAsWritten([]) == Crash && SkipSave([])
  {
  }

  /** What the save effect does when it runs. */
  datatype SaveResult = SaveResult(history: seq<Chat>, local: LocalStorage, remote: seq<Write>)

  /** The save effect (without its debounce): unless the list is the bare
      greeting, the active conversation with its derived title and `now` as
      `lastModified` is upserted, the list is backed up locally, and a signed
      in user also gets one remote save of it. */
  function SaveEffect(msgs: seq<Message>, currentId: string, history: seq<Chat>, uid: Option<string>,
                      ls: LocalStorage, quotaOk: bool, now: int, serverNow: int): (r: Option<SaveResult>)
    ensures r.None? <==> SkipSave(msgs)
    ensures r.Some? ==> r.value.history == Upsert(history, Chat(currentId, DeriveTitle(msgs), msgs, now))
    ensures r.Some? ==> Chat(currentId, DeriveTitle(msgs), msgs, now) in r.value.history
    ensures r.Some? ==> forall x :: x in Ids(r.value.history) <==> x in Ids(history) || x == currentId
    ensures r.Some? && quotaOk ==> LoadHistory(r.value.local) == r.value.history
    ensures r.Some? && uid.None? ==> r.value.remote == []
    ensures r.Some? && uid.Some? ==>
      (|r.value.remote| == 1
       && r.value.remote[0] == SaveChat(uid.value, currentId, DeriveTitle(msgs), msgs, now, serverNow))
  {
    if SkipSave(msgs) then None
    else
      var chat := Chat(currentId, DeriveTitle(msgs), msgs, now);
      var h := Upsert(history, chat);
      UpsertIds(history, chat);
      var remote := match uid
        case None => []
        case Some(u) => [SaveChat(u, currentId, chat.title, msgs, now, serverNow)];
      Some(SaveResult(h, Backup(ls, h, quotaOk), remote))
  }

  /** Every conversation except those whose id is in `ids`, in order. */
  function Without(history: seq<Chat>, ids: set<string>): (r: seq<Chat>)
    ensures |r| <= |history|
    ensures forall c :: c in r <==> c in history && c.id !in ids
  {
    var r := Filter(history, (c: Chat) => c.id !in ids);
    forall c | c in history && c.id !in ids
      ensures c in r
    {
      var i :| 0 <= i < |history| && history[i] == c;
    }
    forall c | c in r
      ensures c in history && c.id !in ids
    {
      var i :| 0 <= i < |r| && r[i] == c;
    }
    r
  }

  /** Removal keeps relative order: it distributes over concatenation. */
  lemma WithoutAppend(a: seq<Chat>, b: seq<Chat>, ids: set<string>)
    ensures Without(a + b, ids) == Without(a, ids) + Without(b, ids)
  {
    FilterAppend(a, b, (c: Chat) => c.id !in ids);
  }

  /** Removing the same ids twice is removing them once. */
  lemma WithoutIdempotent(history: seq<Chat>, ids: set<string>)
    ensures Without(Without(history, ids), ids) == Without(history, ids)
  {
    FilterIdempotent(history, (c: Chat) => c.id !in ids);
  }

  /** Removing some ids and then more of them is removing the larger set. */
  lemma WithoutWider(history: seq<Chat>, some: set<string>, more: set<string>)
    requires some <= more
    ensures Without(Without(history, some), more) == Without(history, more)
  {
    FilterNarrow(history, (c: Chat) => c.id !in some, (c: Chat) => c.id !in more);
  }

  /** What a deletion does: the new list, its backup, the remote writes and
      whether the active conversation must be reset. */
  datatype Removal = Removal(history: seq<Chat>, local: LocalStorage, remote: seq<Write>, reset: bool)

  /** `handleDeleteChat(id)`. */
  function DeleteChat(history: seq<Chat>, id: string, currentId: string, uid: Option<string>,
                      ls: LocalStorage, quotaOk: bool): (r: Removal)
    ensures r.history == Without(history, {id})
    ensures forall c :: c in r.history <==> c in history && c.id != id
    ensures id !in Ids(r.history)
    ensures r.reset <==> id == currentId
    ensures quotaOk ==> LoadHistory(r.local) == r.history
    ensures uid.None? ==> r.remote == []
    ensures uid.Some? ==> r.remote == [Delete(uid.value, id)]
  {
    var h := Without(history, {id});
    assert forall i :: 0 <= i < |h| ==> h[i] in h && Ids(h)[i] == h[i].id;
    var remote := if uid.Some? then RemoteStore.DeleteChat(uid.value, id) else [];
    Removal(h, Backup(ls, h, quotaOk), remote, id == currentId)
  }

  /** The conversations last modified today, in list order. */
  function TodayHistory(history: seq<Chat>, isToday: int -> bool): (r: seq<Chat>)
    ensures forall c :: c in r <==> c in history && isToday(c.lastModified)
  {
    var r := Filter(history, (c: Chat) => isToday(c.lastModified));
    forall c | c in history && isToday(c.lastModified)
      ensures c in r
    {
      var i :| 0 <= i < |history| && history[i] == c;
    }
    forall c | c in r
      ensures c in history && isToday(c.lastModified)
    {
      var i :| 0 <= i < |r| && r[i] == c;
    }
    r
  }

  /** The other conversations, in list order. */
  function OlderHistory(history: seq<Chat>, isToday: int -> bool): (r: seq<Chat>)
    ensures forall c :: c in r <==> c in history && !isToday(c.lastModified)
  {
    var r := Filter(history, (c: Chat) => !isToday(c.lastModified));
    forall c | c in history && !isToday(c.lastModified)
      ensures c in r
    {
      var i :| 0 <= i < |history| && history[i] == c;
    }
    forall c | c in r
      ensures c in history && !isToday(c.lastModified)
    {
      var i :| 0 <= i < |r| && r[i] == c;
    }
    r
  }

  /** The two sections split the list: every conversation is in exactly one
      of them, as often as it is in the list. */
  lemma TodayOlderPartition(history: seq<Chat>, isToday: int -> bool)
    ensures multiset(TodayHistory(history, isToday)) + multiset(OlderHistory(history, isToday)) == multiset(history)
  {
    FilterPartition(history, (c: Chat) => isToday(c.lastModified), (c: Chat) => !isToday(c.lastModified));
  }

  /** `handleClearAll()`: removes every conversation sharing an id with a
      conversation of today, deletes those ids remotely for a signed in
      user, and resets when the active conversation is among them. */
  function ClearToday(history: seq<Chat>, isToday: int -> bool, currentId: string, uid: Option<string>,
                      ls: LocalStorage, quotaOk: bool): (r: Removal)
    ensures r.history == Without(history, IdSet(TodayHistory(history, isToday)))
    ensures forall c :: c in r.history <==> c in history && c.id !in Ids(TodayHistory(history, isToday))
    ensures r.reset <==> currentId in Ids(TodayHistory(history, isToday))
    ensures quotaOk ==> LoadHistory(r.local) == r.history
    ensures uid.None? ==> r.remote == []
    ensures uid.Some? ==> r.remote == ClearTodayChats(uid.value, Ids(TodayHistory(history, isToday)))
  {
    var todayIds := Ids(TodayHistory(history, isToday));
    var h := Without(history, IdSet(TodayHistory(history, isToday)));
    var remote := if uid.Some? then ClearTodayChats(uid.value, todayIds) else [];
    Removal(h, Backup(ls, h, quotaOk), remote, currentId in IdSet(TodayHistory(history, isToday)))
  }

  /** Two predicates that agree on every element filter alike. */
  lemma {:induction false} FilterAgree(s: seq<Chat>, p: Chat -> bool, q: Chat -> bool)
    requires forall i :: 0 <= i < |s| ==> p(s[i]) == q(s[i])
    ensures Filter(s, p) == Filter(s, q)
  {
    if |s| > 0 {
      FilterAgree(s[1..], p, q);
    }
  }

  /** With unique ids, clearing today leaves exactly the older section. */
  lemma ClearTodayIsOlder(history: seq<Chat>, isToday: int -> bool, currentId: string, uid: Option<string>,
                          ls: LocalStorage, quotaOk: bool)
    requires UniqueIds(history)
    ensures ClearToday(history, isToday, currentId, uid, ls, quotaOk).history == OlderHistory(history, isToday)
  {
    var today := TodayHistory(history, isToday);
    var ids := IdSet(today);
    forall i | 0 <= i < |history|
      ensures (history[i].id !in ids) == !isToday(history[i].lastModified)
    {
      var c := history[i];
      if isToday(c.lastModified) {
        assert c in today;
        var k :| 0 <= k < |today| && today[k] == c;
        assert Ids(today)[k] == c.id;
      } else {
        forall k | 0 <= k < |today|
          ensures Ids(today)[k] != c.id
        {
          assert today[k] in today;
          var j :| 0 <= j < |history| && history[j] == today[k];
          assert j != i;
        }
      }
    }
    FilterAgree(history, (c: Chat) => c.id !in ids, (c: Chat) => !isToday(c.lastModified));
  }

  /** The local conversations a remote snapshot does not hold. */
  function LocalOnly(localChats: seq<Chat>, remote: seq<Chat>): (r: seq<Chat>)
    ensures forall c :: c in r <==> c in localChats && c.id !in Ids(remote)
  {
    Without(localChats, IdSet(remote))
  }

  /** What the history effect does with one remote snapshot. */
  datatype SnapshotResult = SnapshotResult(history: seq<Chat>, local: LocalStorage, writes: seq<Write>, migrated: bool)

  /** The snapshot callback: local conversations absent from the snapshot are
      pushed to the account once, guarded by the migration flag, which is set
      whatever happens; the remote list then replaces the history and the
      local backup. `localChats` is what was read from the local backup when
      the effect started. */
  function OnRemoteSnapshot(localChats: seq<Chat>, remote: seq<Chat>, migrated: bool, uid: string,
                            ls: LocalStorage, quotaOk: bool, now: int, serverNow: int): (r: SnapshotResult)
    ensures r.history == remote
    ensures quotaOk ==> LoadHistory(r.local) == remote
    ensures r.migrated
    ensures r.writes != [] <==> |LocalOnly(localChats, remote)| > 0 && !migrated
    ensures r.writes != [] ==> r.writes == ImportChats(uid, LocalOnly(localChats, remote), now, serverNow)
  {
    var localOnly := LocalOnly(localChats, remote);
    var writes := if |localOnly| > 0 && !migrated then ImportChats(uid, localOnly, now, serverNow) else [];
    SnapshotResult(remote, Backup(ls, remote, quotaOk), writes, true)
  }

  /** The migration flag once the pushed writes fail: cleared whatever it
      was, so that the next snapshot tries again. */
  const FlagAfterFailure: bool := false

  /** Running the callback again on the same snapshot changes nothing and
      pushes nothing: the list and the backup stay as they are. */
  lemma MigrationRunsOnce(localChats: seq<Chat>, remote: seq<Chat>, migrated: bool, uid: string, ls: LocalStorage,
                          quotaOk: bool, now: int, serverNow: int)
    ensures var first := OnRemoteSnapshot(localChats, remote, migrated, uid, ls, quotaOk, now, serverNow);
      var second := OnRemoteSnapshot(localChats, remote, first.migrated, uid, first.local, quotaOk, now, serverNow);
      second.writes == [] && second.history == first.history && second.local == first.local
  {
  }

  /** After a failed push the flag is clear again, so a later snapshot, which
      holds every id the first one held and possibly some of the pushed
      conversations that did land, pushes exactly the conversations of the
      first attempt that it still lacks, in the same order, and nothing else. */
  lemma MigrationRetriesAfterFailure(localChats: seq<Chat>, remote: seq<Chat>, later: seq<Chat>, uid: string,
                                     ls: LocalStorage, quotaOk: bool, now: int, serverNow: int,
                                     retryNow: int, retryServerNow: int)
    requires IdSet(remote) <= IdSet(later)
    ensures var first := OnRemoteSnapshot(localChats, remote, false, uid, ls, quotaOk, now, serverNow);
      var retry := OnRemoteSnapshot(localChats, later, FlagAfterFailure, uid, first.local,
                                    quotaOk, retryNow, retryServerNow);
      retry.writes == ImportChats(uid, Without(LocalOnly(localChats, remote), IdSet(later)), retryNow, retryServerNow)
  {
    WithoutWider(localChats, IdSet(remote), IdSet(later));
  }

  /** Once the pushed writes land, every local conversation is visible in the
      account, provided the snapshot was the account's visible list. */
  lemma MigrationMakesLocalVisible(store: Store, localChats: seq<Chat>, remote: seq<Chat>, uid: string,
                                   ls: LocalStorage, quotaOk: bool, now: int, serverNow: int)
    requires forall x :: x in Ids(remote) <==> x in VisibleIds(store, uid)
    ensures var r := OnRemoteSnapshot(localChats, remote, false, uid, ls, quotaOk, now, serverNow);
      forall i :: 0 <= i < |localChats| ==> localChats[i].id in VisibleIds(ApplyAll(store, r.writes), uid)
  {
    var r := OnRemoteSnapshot(localChats, remote, false, uid, ls, quotaOk, now, serverNow);
    var localOnly := LocalOnly(localChats, remote);
    forall i | 0 <= i < |localChats|
      ensures localChats[i].id in VisibleIds(ApplyAll(store, r.writes), uid)
    {
      var c := localChats[i];
      if c.id in Ids(remote) {
        assert forall j :: 0 <= j < |r.writes| ==> r.writes[j].uid == uid && r.writes[j].SetMerge?;
        assert (uid, c.id) in store && LastModifiedField in store[(uid, c.id)];
        MergesKeepFields(store, r.writes, (uid, c.id), LastModifiedField);
      } else {
        assert c in localOnly;
        var j :| 0 <= j < |localOnly| && localOnly[j] == c;
        assert r.writes[j].chatId == c.id && r.writes[j].uid == uid;
        SavesBecomeVisible(store, r.writes, j);
      }
    }
  }

  /** The start of the history effect: a non-empty local backup replaces the
      list at once; an empty or unreadable one leaves it alone. */
  function OnHistoryStart(ls: LocalStorage, history: seq<Chat>): (r: seq<Chat>)
    ensures LoadHistory(ls) != [] ==> r == LoadHistory(ls)
    ensures LoadHistory(ls) == [] ==> r == history
  {
    var local := LoadHistory(ls);
    if |local| > 0 then local else history
  }
}

=== FILE: local_backup.dfy ===
/**
 The browser-local backup of the history list. `localStorage` is a map from
 keys to stored entries; what `JSON.stringify` wrote is kept as the list it
 encoded, and anything `JSON.parse` (or the `.map` that follows it) would
 reject is `Unparsable`.

 The program uses two different keys: the chat interface reads and writes
 "lunar_chat_history" (src/components/chat-interface.tsx:26), while the
 account-link path reads "lunar-chat-history" (src/lib/auth-context.tsx:93).
 */
module LocalBackup {
  import opened ChatModel

  const HistoryKey: string := "lunar_chat_history"
  const LinkBackupKey: string := "lunar-chat-history"

  /** What a key holds: a serialised list of conversations, or text the
      parser rejects (including the empty string). */
  datatype Entry = Encoded(chats: seq<Chat>) | Unparsable

  type LocalStorage = map<string, Entry>

  /** Reading a list stored under `key`: an absent key or unparsable text
      reads as the empty list. */
  function ReadChats(ls: LocalStorage, key: string): (r: seq<Chat>)
    ensures key !in ls ==> r == []
    ensures key in ls && ls[key].Unparsable? ==> r == []
    ensures key in ls && ls[key].Encoded? ==> r == ls[key].chats
  {
    if key in ls && ls[key].Encoded? then ls[key].chats else []
  }

  /** `loadFromLocalStorage()`. */
  function LoadHistory(ls: LocalStorage): (r: seq<Chat>)
    ensures HistoryKey !in ls ==> r == []
    ensures HistoryKey in ls && ls[HistoryKey].Unparsable? ==> r == []
    ensures HistoryKey in ls && ls[HistoryKey].Encoded? ==> r == ls[HistoryKey].chats
  {
    ReadChats(ls, HistoryKey)
  }

  /** `backupToLocalStorage(chats)`: when the quota allows, the key holds the
      list; when `setItem` throws, nothing changes and the error is dropped. */
  function Backup(ls: LocalStorage, chats: seq<Chat>, quotaOk: bool): (r: LocalStorage)
    ensures quotaOk ==> HistoryKey in r && r[HistoryKey] == Encoded(chats)
    ensures !quotaOk ==> r == ls
    ensures forall k :: k != HistoryKey ==> (k in r <==> k in ls)
    ensures forall k :: k != HistoryKey && k in ls ==> r[k] == ls[k]
  {
    if quotaOk then ls[HistoryKey := Encoded(chats)] else ls
  }

  /** A successful backup reads back as the list backed up. */
  lemma LoadAfterBackup(ls: LocalStorage, chats: seq<Chat>)
    ensures LoadHistory(Backup(ls, chats, true)) == chats
  {
  }

  /** The backup the chat interface writes is never what the account-link
      path reads: the two keys differ, so linking sees only what was stored
      under its own key. */
  lemma BackupInvisibleToLink(ls: LocalStorage, chats: seq<Chat>, quotaOk: bool)
    ensures ReadChats(Backup(ls, chats, quotaOk), LinkBackupKey) == ReadChats(ls, LinkBackupKey)
  {
    assert HistoryKey[5] != LinkBackupKey[5];
  }
}

=== FILE: remote_store.dfy ===
/**
 The remote history store (src/lib/firestore.ts). The database is a map from
 `(userId, chatId)` — the document `users/{userId}/chats/{chatId}` — to a
 document, itself a map from field names to values. The operations of the
 module are modelled as the writes they issue (`setDoc` with `merge`,
 `deleteDoc`, a `writeBatch` of deletes) and as the reads they perform.
 */
module RemoteStore {
  import opened Base
  import opened ChatModel

  /** A message as stored: its `Date` is replaced by `getTime()`. */
  datatype StoredMessage = StoredMessage(id: string, role: Role, content: string, timestamp: int)

  /** The field values this program reads and writes. */
  datatype Value = Str(s: string) | Number(n: int) | MessageList(items: seq<StoredMessage>) | ServerTime(t: int)

  type Doc = map<string, Value>
  /** `(userId, chatId)`. */
  type Key = (string, string)
  type Store = map<Key, Doc>

  const TitleField: string := "chat_title"
  const MessagesField: string := "messages"
  const TimestampField: string := "timestamp"
  const LastModifiedField: string := "lastModified"

  /** One write sent to the database. */
  datatype Write = SetMerge(uid: string, chatId: string, fields: Doc) | Delete(uid: string, chatId: string)

  /** The effect of one write: a merge replaces the named fields of the
      document (creating it if needed) and keeps its other fields; a delete
      removes the document, and deleting a missing one is not an error. */
  function Apply(store: Store, w: Write): (r: Store)
    ensures forall k :: k != (w.uid, w.chatId) ==> (k in r <==> k in store)
    ensures forall k :: k != (w.uid, w.chatId) && k in store ==> r[k] == store[k]
    ensures w.Delete? ==> (w.uid, w.chatId) !in r
    ensures w.SetMerge? ==> (w.uid, w.chatId) in r
    ensures w.SetMerge? ==> forall f :: f in w.fields ==> f in r[(w.uid, w.chatId)] && r[(w.uid, w.chatId)][f] == w.fields[f]
    ensures w.SetMerge? && (w.uid, w.chatId) in store ==>
      forall f :: f in store[(w.uid, w.chatId)] && f !in w.fields ==>
        f in r[(w.uid, w.chatId)] && r[(w.uid, w.chatId)][f] == store[(w.uid, w.chatId)][f]
  {
    var k := (w.uid, w.chatId);
    match w
    case SetMerge(_, _, fields) =>
      var current := if k in store then store[k] else map[];
      store[k := current + fields]
    case Delete(_, _) =>
      store - {k}
  }

  /** Several writes, in order. */
  function ApplyAll(store: Store, ws: seq<Write>): Store
    decreases |ws|
  {
    if |ws| == 0 then store else ApplyAll(Apply(store, ws[0]), ws[1..])
  }

  /** The documents a list of writes touches. */
  function Targets(ws: seq<Write>): (r: seq<Key>)
    ensures |r| == |ws|
    ensures forall i :: 0 <= i < |ws| ==> r[i] == (ws[i].uid, ws[i].chatId)
  {
    seq(|ws|, i requires 0 <= i < |ws| => (ws[i].uid, ws[i].chatId))
  }

  /** A document no write targets is left exactly as it was. */
  lemma {:induction false} ApplyAllUntouched(store: Store, ws: seq<Write>, k: Key)
    requires k !in Targets(ws)
    ensures k in ApplyAll(store, ws) <==> k in store
    ensures k in store ==> ApplyAll(store, ws)[k] == store[k]
    decreases |ws|
  {
    if |ws| > 0 {
      assert Targets(ws)[0] == (ws[0].uid, ws[0].chatId);
      assert Targets(ws[1..]) == Targets(ws)[1..];
      ApplyAllUntouched(Apply(store, ws[0]), ws[1..], k);
    }
  }

  /** `{id, role, content, timestamp: getTime()}` for one message. */
  function StoreMessage(m: Message): StoredMessage {
    StoredMessage(m.id, m.role, m.content, m.timestamp)
  }

  /** `{...msg, timestamp: new Date(msg.timestamp)}` for one stored message. */
  function LoadMessage(m: StoredMessage): Message {
    Message(m.id, m.role, m.content, m.timestamp)
  }

  /** Message serialisation as in `saveChatToFirestore`. */
  function StoreMessages(msgs: seq<Message>): (r: seq<StoredMessage>)
    ensures |r| == |msgs|
    ensures forall i :: 0 <= i < |msgs| ==>
      r[i].id == msgs[i].id && r[i].role == msgs[i].role && r[i].content == msgs[i].content
      && r[i].timestamp == msgs[i].timestamp
  {
    seq(|msgs|, i requires 0 <= i < |msgs| => StoreMessage(msgs[i]))
  }

  /** Message hydration as in `subscribeToChatHistory` and `getAllChatsOnce`. */
  function LoadMessages(items: seq<StoredMessage>): (r: seq<Message>)
    ensures |r| == |items|
  {
    seq(|items|, i requires 0 <= i < |items| => LoadMessage(items[i]))
  }

  /** Hydration undoes serialisation: every message comes back unchanged. */
  lemma LoadStoreMessages(msgs: seq<Message>)
    ensures LoadMessages(StoreMessages(msgs)) == msgs
  {
    var r := LoadMessages(StoreMessages(msgs));
    forall i | 0 <= i < |msgs|
      ensures r[i] == msgs[i]
    {
    }
  }

  /** Serialisation undoes hydration: every stored message comes back unchanged. */
  lemma StoreLoadMessages(items: seq<StoredMessage>)
    ensures StoreMessages(LoadMessages(items)) == items
  {
  }

  /** The fields `saveChatToFirestore` writes. */
  function SaveFields(title: string, msgs: seq<Message>, now: int, serverNow: int): (d: Doc)
    ensures d.Keys == {TitleField, MessagesField, TimestampField, LastModifiedField}
  {
    map[TitleField := Str(title), MessagesField := MessageList(StoreMessages(msgs)),
        TimestampField := ServerTime(serverNow), LastModifiedField := Number(now)]
  }

  /** `saveChatToFirestore(userId, chatId, title, messages)`: one merge write
      stamped with the client clock `now` (`lastModified`) and the server
      clock `serverNow` (`timestamp`). */
  function SaveChat(uid: string, chatId: string, title: string, msgs: seq<Message>, now: int, serverNow: int): (w: Write)
    ensures w.SetMerge? && w.uid == uid && w.chatId == chatId
    ensures w.fields.Keys == {TitleField, MessagesField, TimestampField, LastModifiedField}
  {
    SetMerge(uid, chatId, SaveFields(title, msgs, now, serverNow))
  }

  /** One save per conversation, each under its own id and title. */
  function SaveChats(uid: string, chats: seq<Chat>, now: int, serverNow: int): (ws: seq<Write>)
    ensures |ws| == |chats|
    ensures forall i :: 0 <= i < |chats| ==>
      ws[i] == SaveChat(uid, chats[i].id, chats[i].title, chats[i].messages, now, serverNow)
  {
    seq(|chats|, i requires 0 <= i < |chats| => SaveChat(uid, chats[i].id, chats[i].title, chats[i].messages, now, serverNow))
  }

  /** The title used when a conversation is imported into an account: its
      own title, or "Imported Chat" when that is empty. */
  const ImportedTitle: string := "Imported Chat"

  function ImportTitle(title: string): (t: string)
    ensures t != []
    ensures title != [] ==> t == title
    ensures title == [] ==> t == ImportedTitle
  {
    if title == [] then ImportedTitle else title
  }

  /** The saves both import paths issue: one per conversation under `uid`,
      with the fallback title. */
  function ImportChats(uid: string, chats: seq<Chat>, now: int, serverNow: int): (ws: seq<Write>)
    ensures |ws| == |chats|
    ensures forall i :: 0 <= i < |chats| ==>
      ws[i] == SaveChat(uid, chats[i].id, ImportTitle(chats[i].title), chats[i].messages, now, serverNow)
  {
    seq(|chats|, i requires 0 <= i < |chats| => SaveChat(uid, chats[i].id, ImportTitle(chats[i].title), chats[i].messages, now, serverNow))
  }

  /** Merge writes never remove a document or one of its fields. */
  lemma {:induction false} MergesKeepFields(store: Store, ws: seq<Write>, k: Key, f: string)
    requires forall i :: 0 <= i < |ws| ==> ws[i].SetMerge?
    requires k in store && f in store[k]
    ensures k in ApplyAll(store, ws) && f in ApplyAll(store, ws)[k]
    decreases |ws|
  {
    if |ws| > 0 {
      MergesKeepFields(Apply(store, ws[0]), ws[1..], k, f);
    }
  }

  /** After a sequence of saves, every saved conversation is visible to the
      history query of its user. */
  lemma {:induction false} SavesBecomeVisible(store: Store, ws: seq<Write>, i: nat)
    requires forall j :: 0 <= j < |ws| ==> ws[j].SetMerge? && LastModifiedField in ws[j].fields
    requires i < |ws|
    ensures ws[i].chatId in VisibleIds(ApplyAll(store, ws), ws[i].uid)
    decreases |ws|
  {
    var k := (ws[i].uid, ws[i].chatId);
    if i == 0 {
      MergesKeepFields(Apply(store, ws[0]), ws[1..], k, LastModifiedField);
    } else {
      SavesBecomeVisible(Apply(store, ws[0]), ws[1..], i - 1);
    }
    var after := ApplyAll(store, ws);
    assert k in after && k.0 == ws[i].uid && LastModifiedField in after[k];
  }

  /** Turning one stored document into a conversation, with the defaults of
      the two read paths: a missing or empty title reads as
      "New Conversation", missing messages as none, a missing
      `lastModified` as 0. */
  function Hydrate(id: string, d: Doc): (c: Chat)
    ensures c.id == id
    ensures TitleField !in d ==> c.title == UntitledTitle
    ensures MessagesField !in d ==> c.messages == []
    ensures LastModifiedField !in d ==> c.lastModified == 0
    ensures c.title != []
  {
    var title := if TitleField in d && d[TitleField].Str? && d[TitleField].s != [] then d[TitleField].s else UntitledTitle;
    var msgs := if MessagesField in d && d[MessagesField].MessageList? then LoadMessages(d[MessagesField].items) else [];
    var modified := if LastModifiedField in d && d[LastModifiedField].Number? then d[LastModifiedField].n else 0;
    Chat(id, title, msgs, modified)
  }

  /** Saving and reading back: the conversation returns with its messages
      unchanged, its title (or the default for an empty one) and `now` as
      its `lastModified`, whatever the document held before. */
  lemma SaveThenHydrate(store: Store, uid: string, chatId: string, title: string, msgs: seq<Message>, now: int, serverNow: int)
    ensures var after := Apply(store, SaveChat(uid, chatId, title, msgs, now, serverNow));
      Hydrate(chatId, after[(uid, chatId)])
      == Chat(chatId, if title == [] then UntitledTitle else title, msgs, now)
  {
    LoadStoreMessages(msgs);
  }

  /** `deleteChatFromFirestore(userId, chatId)`. */
  function DeleteChat(uid: string, chatId: string): (ws: seq<Write>)
    ensures forall store: Store, k: Key :: var after := ApplyAll(store, ws);
      (k in after <==> k in store && k != (uid, chatId)) && (k in after ==> after[k] == store[k])
  {
    [Delete(uid, chatId)]
  }

  /** `clearTodayChatsFromFirestore(userId, chatIds)`: nothing at all for an
      empty list, otherwise one batch deleting each listed document. */
  function ClearTodayChats(uid: string, chatIds: seq<string>): (ws: seq<Write>)
    ensures |chatIds| == 0 ==> ws == []
    ensures |ws| == |chatIds|
    ensures forall i :: 0 <= i < |ws| ==> ws[i] == Delete(uid, chatIds[i])
  {
    if |chatIds| == 0 then [] else seq(|chatIds|, i requires 0 <= i < |chatIds| => Delete(uid, chatIds[i]))
  }

  /** The batch deletes exactly the listed documents of the user and leaves
      every other document as it was. */
  lemma {:induction false} ClearTodayEffect(store: Store, uid: string, chatIds: seq<string>, k: Key)
    ensures var after := ApplyAll(store, ClearTodayChats(uid, chatIds));
      (k in after <==> k in store && !(k.0 == uid && k.1 in chatIds))
      && (k in after ==> after[k] == store[k])
  {
    if |chatIds| > 0 {
      var ws := ClearTodayChats(uid, chatIds);
      assert ws[1..] == ClearTodayChats(uid, chatIds[1..]);
      ClearTodayEffect(Apply(store, ws[0]), uid, chatIds[1..], k);
      assert k.1 in chatIds <==> k.1 == chatIds[0] || k.1 in chatIds[1..];
    }
  }

  /** The conversations the query `orderBy("lastModified", "desc")` returns
      for a user: those whose document has a `lastModified` field, since
      ordering by a field leaves out documents without it. */
  function VisibleIds(store: Store, uid: string): set<string> {
    set k | k in store && k.0 == uid && LastModifiedField in store[k] :: k.1
  }

  /** Newest first. */
  predicate SortedDesc(chats: seq<Chat>) {
    forall i, j :: 0 <= i < j < |chats| ==> chats[i].lastModified >= chats[j].lastModified
  }

  /** Places `c` before the first conversation it is at least as new as. */
  function InsertByLastModified(chats: seq<Chat>, c: Chat): (r: seq<Chat>)
    requires SortedDesc(chats)
    ensures multiset(r) == multiset(chats) + multiset{c}
    ensures SortedDesc(r)
  {
    if |chats| == 0 then [c]
    else if c.lastModified >= chats[0].lastModified then [c] + chats
    else
      var rest := InsertByLastModified(chats[1..], c);
      assert chats == [chats[0]] + chats[1..];
      InsertedNotNewer(chats, c, rest);
      [chats[0]] + rest
  }

  /** In the recursive case of `InsertByLastModified`, nothing inserted
      behind the first conversation is newer than it. */
  lemma InsertedNotNewer(chats: seq<Chat>, c: Chat, rest: seq<Chat>)
    requires |chats| > 0 && SortedDesc(chats) && c.lastModified < chats[0].lastModified
    requires multiset(rest) == multiset(chats[1..]) + multiset{c}
    ensures forall k :: 0 <= k < |rest| ==> rest[k].lastModified <= chats[0].lastModified
  {
    forall k | 0 <= k < |rest|
      ensures rest[k].lastModified <= chats[0].lastModified
    {
      assert rest[k] in multiset(rest);
      if rest[k] != c {
        assert rest[k] in multiset(chats[1..]);
        var j :| 0 <= j < |chats[1..]| && chats[1..][j] == rest[k];
        assert chats[j + 1] == rest[k];
      }
    }
  }

  /** Inserting a conversation with a new id keeps the ids unique. */
  lemma {:induction false} InsertKeepsUnique(chats: seq<Chat>, c: Chat)
    requires SortedDesc(chats) && UniqueIds(chats) && c.id !in Ids(chats)
    ensures UniqueIds(InsertByLastModified(chats, c))
  {
    if |chats| == 0 {
    } else if c.lastModified >= chats[0].lastModified {
      forall j | 0 <= j < |chats|
        ensures chats[j].id != c.id
      {
        assert Ids(chats)[j] == chats[j].id;
      }
    } else {
      var tail := chats[1..];
      assert Ids(tail) == Ids(chats)[1..];
      InsertKeepsUnique(tail, c);
      var rest := InsertByLastModified(tail, c);
      forall k | 0 <= k < |rest|
        ensures rest[k].id != chats[0].id
      {
        var m := InMultiset(rest, k, tail, c);
        if m == |tail| {
          assert Ids(chats)[0] == chats[0].id;
        } else {
          assert tail[m] == chats[m + 1];
        }
      }
    }
  }

  /** Where an element of the insertion came from: an index of `chats`, or
      `|chats|` for `c` itself. */
  lemma InMultiset(r: seq<Chat>, i: nat, chats: seq<Chat>, c: Chat) returns (m: nat)
    requires i < |r| && multiset(r) == multiset(chats) + multiset{c}
    ensures m <= |chats|
    ensures m < |chats| ==> chats[m] == r[i]
    ensures m == |chats| ==> r[i] == c
  {
    assert r[i] in multiset(r);
    if r[i] == c {
      m := |chats|;
    } else {
      assert r[i] in multiset(chats);
      m :| 0 <= m < |chats| && chats[m] == r[i];
    }
  }

  /** Each conversation of the list is its own document, hydrated. */
  predicate Hydrated(store: Store, uid: string, chats: seq<Chat>) {
    forall i :: 0 <= i < |chats| ==>
      (uid, chats[i].id) in store && chats[i] == Hydrate(chats[i].id, store[(uid, chats[i].id)])
  }

  /** One step of the query: inserting the next visible document. */
  lemma QueryStep(store: Store, uid: string, chats: seq<Chat>, id: string)
    requires Hydrated(store, uid, chats) && SortedDesc(chats) && UniqueIds(chats)
    requires (uid, id) in store && id !in Ids(chats)
    ensures var next := InsertByLastModified(chats, Hydrate(id, store[(uid, id)]));
      Hydrated(store, uid, next) && SortedDesc(next) && UniqueIds(next)
      && forall x :: x in Ids(next) <==> x in Ids(chats) || x == id
  {
    var c := Hydrate(id, store[(uid, id)]);
    var next := InsertByLastModified(chats, c);
    InsertKeepsUnique(chats, c);
    forall x | x in Ids(next)
      ensures x in Ids(chats) || x == id
    {
      var i :| 0 <= i < |next| && Ids(next)[i] == x;
      var m := InMultiset(next, i, chats, c);
      if m < |chats| {
        assert Ids(chats)[m] == x;
      }
    }
    forall x | x in Ids(chats) || x == id
      ensures x in Ids(next)
    {
      var k: Chat;
      if x == id {
        k := c;
      } else {
        var i :| 0 <= i < |chats| && Ids(chats)[i] == x;
        k := chats[i];
        assert k in multiset(chats);
      }
      assert k in multiset(next);
      var j :| 0 <= j < |next| && next[j] == k;
      assert Ids(next)[j] == x;
    }
    forall i | 0 <= i < |next|
      ensures (uid, next[i].id) in store && next[i] == Hydrate(next[i].id, store[(uid, next[i].id)])
    {
      var m := InMultiset(next, i, chats, c);
    }
  }

  /** `getAllChatsOnce(userId)`, and the list each `subscribeToChatHistory`
      snapshot delivers: every visible conversation of the user exactly once,
      each hydrated from its document, newest first. */
  method QueryChats(store: Store, uid: string) returns (chats: seq<Chat>)
    ensures SortedDesc(chats) && UniqueIds(chats)
    ensures forall id :: id in Ids(chats) <==> id in VisibleIds(store, uid)
    ensures forall i :: 0 <= i < |chats| ==>
      (uid, chats[i].id) in store && chats[i] == Hydrate(chats[i].id, store[(uid, chats[i].id)])
  {
    var visible := VisibleIds(store, uid);
    var pending := visible;
    chats := [];
    while pending != {}
      invariant pending <= visible
      invariant forall id :: id in Ids(chats) <==> id in visible - pending
      invariant SortedDesc(chats) && UniqueIds(chats) && Hydrated(store, uid, chats)
      decreases pending
    {
      var id :| id in pending;
      assert (uid, id) in store;
      QueryStep(store, uid, chats, id);
      chats := InsertByLastModified(chats, Hydrate(id, store[(uid, id)]));
      pending := pending - {id};
    }
  }

  /** `migrateChatsToUser(oldUserId, newUserId)`: nothing when the old user
      has no conversation; otherwise one save under the new user for each
      old conversation whose id the new user does not have yet, carrying the
      hydrated title and messages. */
  method MigrateChatsToUser(store: Store, oldUid: string, newUid: string, now: int, serverNow: int)
    returns (writes: seq<Write>)
    ensures VisibleIds(store, oldUid) == {} ==> writes == []
    ensures forall i :: 0 <= i < |writes| ==>
      var id := writes[i].chatId;
      writes[i].uid == newUid && id in VisibleIds(store, oldUid) && id !in VisibleIds(store, newUid)
      && (oldUid, id) in store
      && writes[i] == SaveChat(newUid, id, Hydrate(id, store[(oldUid, id)]).title,
                               Hydrate(id, store[(oldUid, id)]).messages, now, serverNow)
    ensures forall id :: id in VisibleIds(store, oldUid) && id !in VisibleIds(store, newUid) ==>
      (newUid, id) in Targets(writes)
  {
    var oldChats := QueryChats(store, oldUid);
    if |oldChats| == 0 {
      assert forall id :: id !in VisibleIds(store, oldUid) by {
        assert Ids(oldChats) == [];
      }
      return [];
    }
    assert Ids(oldChats)[0] in VisibleIds(store, oldUid);
    var existing := QueryChats(store, newUid);
    var existingIds := set i | 0 <= i < |existing| :: existing[i].id;
    assert forall id :: id in existingIds <==> id in VisibleIds(store, newUid);
    var toMigrate := Filter(oldChats, (c: Chat) => c.id !in existingIds);
    writes := SaveChats(newUid, toMigrate, now, serverNow);
    forall id | id in VisibleIds(store, oldUid) && id !in VisibleIds(store, newUid)
      ensures (newUid, id) in Targets(writes)
    {
      var i :| 0 <= i < |oldChats| && Ids(oldChats)[i] == id;
      assert oldChats[i] in toMigrate;
      var j :| 0 <= j < |toMigrate| && toMigrate[j] == oldChats[i];
      assert Targets(writes)[j] == (newUid, id);
    }
  }

  /** Migration never overwrites a conversation the new user already has:
      every such document is exactly as it was. */
  lemma MigrationKeepsExisting(store: Store, oldUid: string, newUid: string, writes: seq<Write>, id: string)
    requires forall i :: 0 <= i < |writes| ==> writes[i].uid == newUid && writes[i].chatId !in VisibleIds(store, newUid)
    requires id in VisibleIds(store, newUid)
    ensures (newUid, id) in ApplyAll(store, writes)
    ensures ApplyAll(store, writes)[(newUid, id)] == store[(newUid, id)]
  {
    assert (newUid, id) in store;
    forall i | 0 <= i < |writes|
      ensures Targets(writes)[i] != (newUid, id)
    {
    }
    ApplyAllUntouched(store, writes, (newUid, id));
  }
}

=== FILE: session.dfy ===
/**
 The active conversation of the chat interface: sending a message and
 streaming the reply into it (`handleSubmit`), starting a fresh
 conversation (`handleResetConversation`) and the save it flushes first
 (`flushPendingSave`), all in src/components/chat-interface.tsx.

 The network is a parameter: the reply is either an HTTP error, a response
 without a body, or a body delivered as a sequence of decoded chunks that
 may end in a transport failure. Fresh ids and the clock are parameters too.
 */
module Session {
  import opened Base
  import opened Text
  import opened ChatModel
  import opened StreamDecoder
  import opened RemoteStore
  import opened LocalBackup
  import History

  /** The state `handleSubmit` reads and writes. */
  datatype Session = Session(messages: seq<Message>, input: string, processing: bool,
                             error: Option<string>, currentId: string)

  /** The error shown when an HTTP error reply carries no message. */
  const DefaultHttpError: string := "Failed to connect to the void."

  /** The error shown when what was thrown is not an `Error`. */
  const UnknownError: string := "An unknown error occurred."

  /** What the request to the chat endpoint yields. `errorText` is the
      `error` member of the error body, if it had one; `failure` is the
      message of the `Error` a failing `read()` throws. `Rejected` is a
      `fetch` that throws (a network failure, say), and `message` is the
      message of the `Error` thrown. Both are `None` when the value thrown
      is not an `Error`. */
  datatype Reply =
    | HttpError(errorText: Option<string>)
    | Rejected(message: Option<string>)
    | NoBody
    | Body(chunks: seq<seq<char>>, readFails: bool, failure: Option<string>)

  /** The message shown for an HTTP error reply: its own text, or the default
      when it has none or an empty one. */
  function HttpErrorMessage(errorText: Option<string>): (m: string)
    ensures m != []
    ensures errorText.Some? && errorText.value != [] ==> m == errorText.value
    ensures errorText.None? || errorText.value == [] ==> m == DefaultHttpError
  {
    if errorText.Some? && errorText.value != [] then errorText.value else DefaultHttpError
  }

  /** Whether a submission goes ahead: the input is not blank once trimmed and
      no reply is being streamed. */
  predicate CanSubmit(s: Session) {
    Trim(s.input) != [] && !s.processing
  }

  /** The conversation once the user message is appended. */
  function WithUserMessage(s: Session, userId: string, now: int): (msgs: seq<Message>)
    ensures |msgs| == |s.messages| + 1 && msgs[..|s.messages|] == s.messages
    ensures msgs[|s.messages|] == Message(userId, User, s.input, now)
  {
    s.messages + [Message(userId, User, s.input, now)]
  }

  /** The message the `catch` of `handleSubmit` shows for a thrown value. */
  function ThrownMessage(message: Option<string>): (m: string)
    ensures message.Some? ==> m == message.value
    ensures message.None? ==> m == UnknownError
  {
    match message
    case Some(text) => text
    case None => UnknownError
  }

  /** `handleSubmit`: the user message is appended and the input cleared; an
      HTTP error reply shows its message, and a rejected request the message
      of what was thrown; a reply without a body ends quietly;
      a body is streamed into a new assistant message (see `StreamReply`).
      `read` is how many chunks were consumed. */
  method Submit(s: Session, reply: Reply, userId: string, assistantId: string, now: int, extract: Extractor)
    returns (r: Session, read: nat)
    ensures !CanSubmit(s) ==> r == s
    ensures CanSubmit(s) ==> !r.processing && r.input == [] && r.currentId == s.currentId
    ensures CanSubmit(s) ==> |r.messages| >= |s.messages| + 1
    ensures CanSubmit(s) && (reply.HttpError? || reply.Rejected? || reply.NoBody?) ==>
      r.messages == WithUserMessage(s, userId, now)
    ensures CanSubmit(s) && reply.HttpError? ==> r.error == Some(HttpErrorMessage(reply.errorText))
    ensures CanSubmit(s) && reply.Rejected? ==> r.error == Some(ThrownMessage(reply.message))
    ensures CanSubmit(s) && reply.NoBody? ==> r.error.None?
    ensures CanSubmit(s) && reply.Body? ==>
      Streamed(WithUserMessage(s, userId, now), assistantId, now, reply, extract, r.messages, r.error, read)
  {
    read := 0;
    if !CanSubmit(s) {
      return s, 0;
    }
    var msgs := WithUserMessage(s, userId, now);
    match reply {
      case HttpError(errorText) =>
        r := Session(msgs, [], false, Some(HttpErrorMessage(errorText)), s.currentId);
      case Rejected(message) =>
        r := Session(msgs, [], false, Some(ThrownMessage(message)), s.currentId);
      case NoBody =>
        r := Session(msgs, [], false, None, s.currentId);
      case Body(chunks, readFails, failure) =>
        var streamed, error;
        streamed, error, read := StreamReply(msgs, assistantId, now, reply, extract);
        r := Session(streamed, [], false, error, s.currentId);
    }
  }

  /** What streaming a body reply into `msgs` produces: the placeholder is
      appended after `msgs` (which, when its id is fresh, are untouched) and
      holds the decoded deltas in order. Reading stops at the first chunk
      whose complete lines reach `[DONE]`, or after the last chunk. Without a
      transport failure before the end marker, the placeholder holds the
      decoding of the text read (of the whole body when it has no `[DONE]`)
      and no error is shown; after one, it keeps the deltas of every complete
      line and the failure is shown. */
  ghost predicate Streamed(msgs: seq<Message>, assistantId: string, now: int, reply: Reply, extract: Extractor,
                           out: seq<Message>, error: Option<string>, read: nat)
    requires reply.Body?
  {
    && |out| == |msgs| + 1 && read <= |reply.chunks|
    && (read < |reply.chunks| ==> ScanLines(Lines(TextRead(reply.chunks, read)), extract).done)
    && (read > 0 ==> !ScanLines(Lines(TextRead(reply.chunks, read - 1)), extract).done)
    && out[|msgs|].id == assistantId && out[|msgs|].role == Lunar && out[|msgs|].timestamp == now
    && (FreshMessageId(msgs, assistantId) ==> out[..|msgs|] == msgs)
    && var whole := ScanLines(Lines(Concat(reply.chunks)), extract);
    && (!reply.readFails || whole.done ==>
          error.None? && out[|msgs|].content == Concat(DecodeWhole(TextRead(reply.chunks, read), extract)))
    && (!reply.readFails && !whole.done ==>
          read == |reply.chunks| && out[|msgs|].content == Concat(DecodeWhole(Concat(reply.chunks), extract)))
    && (reply.readFails && !whole.done ==>
          error == Some(ThrownMessage(reply.failure)) && read == |reply.chunks| && out[|msgs|].content == Concat(whole.deltas))
  }

  /** The streaming part of `handleSubmit`: an empty assistant message is
      appended, the body is decoded, and each delta is appended to it. */
  method StreamReply(msgs: seq<Message>, assistantId: string, now: int, reply: Reply, extract: Extractor)
    returns (out: seq<Message>, error: Option<string>, read: nat)
    requires reply.Body?
    ensures Streamed(msgs, assistantId, now, reply, extract, out, error, read)
  {
    var placeholder := Message(assistantId, Lunar, [], now);
    var deltas, n, rest, end := Decode(reply.chunks, reply.readFails, extract);
    read := n;
    out := StreamInto(msgs, placeholder, deltas);
    error := if end == TransportError then Some(ThrownMessage(reply.failure)) else None;
  }

  /** Appending the placeholder and applying every delta to it: the earlier
      messages are untouched when the placeholder's id is fresh, and the
      placeholder ends up holding the deltas in order. */
  function StreamInto(msgs: seq<Message>, placeholder: Message, deltas: seq<seq<char>>): (r: seq<Message>)
    requires placeholder.content == []
    ensures |r| == |msgs| + 1
    ensures r[|msgs|].id == placeholder.id && r[|msgs|].role == placeholder.role
      && r[|msgs|].timestamp == placeholder.timestamp
    ensures r[|msgs|].content == Concat(deltas)
    ensures FreshMessageId(msgs, placeholder.id) ==> r[..|msgs|] == msgs
  {
    var all := msgs + [placeholder];
    ApplyDeltasConcat(all, placeholder.id, deltas);
    PlaceholderDelta(msgs, placeholder, Concat(deltas));
    ApplyDeltas(all, placeholder.id, deltas)
  }

  /** One delta applied to the list with the empty placeholder appended. */
  lemma PlaceholderDelta(msgs: seq<Message>, placeholder: Message, delta: seq<char>)
    requires placeholder.content == []
    ensures var r := ApplyDelta(msgs + [placeholder], placeholder.id, delta);
      && |r| == |msgs| + 1 && r[|msgs|] == placeholder.(content := delta)
      && (FreshMessageId(msgs, placeholder.id) ==> r[..|msgs|] == msgs)
  {
    var all := msgs + [placeholder];
    var r := ApplyDelta(all, placeholder.id, delta);
    assert all[|msgs|] == placeholder;
    assert r[|msgs|].content == [] + delta;
    if FreshMessageId(msgs, placeholder.id) {
      assert forall i :: 0 <= i < |msgs| ==> all[i].id != placeholder.id;
    }
  }

  /** `flushPendingSave()`: when a debounced save is waiting, the user is
      signed in and the conversation holds more than the greeting, the save
      is issued at once; otherwise nothing is written. */
  function FlushPendingSave(pending: bool, uid: Option<string>, msgs: seq<Message>, currentId: string,
                            now: int, serverNow: int): (ws: seq<Write>)
    ensures |ws| <= 1
    ensures |ws| == 1 <==> pending && uid.Some? && |msgs| > 1
    ensures |ws| == 1 ==> ws[0] == SaveChat(uid.value, currentId, DeriveTitle(msgs), msgs, now, serverNow)
  {
    if pending && uid.Some? && |msgs| > 1 then [SaveChat(uid.value, currentId, DeriveTitle(msgs), msgs, now, serverNow)]
    else []
  }

  /** `handleResetConversation()`: a new conversation id, the greeting alone,
      an empty input, no error and no reply in progress; a pending save of
      the old conversation is flushed first. */
  function Reset(s: Session, pending: bool, uid: Option<string>, newId: string, greetingId: string,
                 now: int, serverNow: int): (r: (Session, seq<Write>))
    ensures r.0.currentId == newId && r.0.input == [] && r.0.error.None? && !r.0.processing
    ensures |r.0.messages| == 1 && r.0.messages[0].role == Lunar && r.0.messages[0].content == GreetingText
    ensures !CanSubmit(r.0)
    ensures r.1 == FlushPendingSave(pending, uid, s.messages, s.currentId, now, serverNow)
  {
    (Session(FreshMessages(greetingId, now), [], false, None, newId),
     FlushPendingSave(pending, uid, s.messages, s.currentId, now, serverNow))
  }

  /** A flushed save is the remote save the save effect issues for the same
      conversation, whatever the history and the backup hold. */
  lemma FlushIsSaveEffect(msgs: seq<Message>, currentId: string, history: seq<Chat>, uid: Option<string>,
                          ls: LocalStorage, quotaOk: bool, now: int, serverNow: int)
    requires |msgs| > 1
    ensures History.SaveEffect(msgs, currentId, history, uid, ls, quotaOk, now, serverNow).Some?
    ensures FlushPendingSave(true, uid, msgs, currentId, now, serverNow)
         == History.SaveEffect(msgs, currentId, history, uid, ls, quotaOk, now, serverNow).value.remote
  {
  }

  /** The conversation a reset starts is never saved: the save effect skips
      the greeting alone. */
  lemma ResetIsNotSaved(s: Session, pending: bool, uid: Option<string>, newId: string, greetingId: string,
                        history: seq<Chat>, ls: LocalStorage, quotaOk: bool, now: int, serverNow: int)
    ensures var started := Reset(s, pending, uid, newId, greetingId, now, serverNow).0;
      History.SaveEffect(started.messages, started.currentId, history, uid, ls, quotaOk, now, serverNow).None?
  {
  }

  /** What a removal handler leaves behind: the active conversation, the
      history list, its backup and every remote write issued, in order. */
  datatype Handled = Handled(session: Session, history: seq<Chat>, local: LocalStorage, writes: seq<Write>)

  /** The end of `handleDeleteChat` and `handleClearAll` as written: when the
      active conversation was removed, `handleResetConversation` runs, and
      its `flushPendingSave` issues the pending save of that very
      conversation after the removal's deletes. */
  function FinishRemovalAsWritten(s: Session, removal: History.Removal, pending: bool, uid: Option<string>,
                                  newId: string, greetingId: string, now: int, serverNow: int): (r: Handled)
    ensures r.history == removal.history && r.local == removal.local
    ensures |r.writes| >= |removal.remote| && r.writes[..|removal.remote|] == removal.remote
    ensures !removal.reset ==> r.session == s && r.writes == removal.remote
    ensures removal.reset ==> r.session.currentId == newId && r.session.messages == FreshMessages(greetingId, now)
    ensures removal.reset && pending && uid.Some? && |s.messages| > 1 ==>
      r.writes[|removal.remote|..] == [SaveChat(uid.value, s.currentId, DeriveTitle(s.messages), s.messages, now, serverNow)]
  {
    if removal.reset then
      var (started, flush) := Reset(s, pending, uid, newId, greetingId, now, serverNow);
      assert (removal.remote + flush)[..|removal.remote|] == removal.remote;
      Handled(started, removal.history, removal.local, removal.remote + flush)
    else Handled(s, removal.history, removal.local, removal.remote)
  }

  /** The end of both handlers as evidently intended: the pending save of a
      conversation that is being removed is dropped, not flushed. */
  function FinishRemoval(s: Session, removal: History.Removal, uid: Option<string>,
                         newId: string, greetingId: string, now: int, serverNow: int): (r: Handled)
    ensures r.history == removal.history && r.local == removal.local && r.writes == removal.remote
    ensures !removal.reset ==> r.session == s
    ensures removal.reset ==>
      (r.session.currentId == newId && r.session.messages == FreshMessages(greetingId, now)
       && r.session.input == [] && r.session.error.None? && !r.session.processing)
  {
    if removal.reset then
      Handled(Reset(s, false, uid, newId, greetingId, now, serverNow).0, removal.history, removal.local, removal.remote)
    else Handled(s, removal.history, removal.local, removal.remote)
  }

  /** `handleDeleteChat(id)` as written. */
  function DeleteChatAsWritten(s: Session, history: seq<Chat>, id: string, uid: Option<string>, ls: LocalStorage,
                               quotaOk: bool, pending: bool, newId: string, greetingId: string,
                               now: int, serverNow: int): (r: Handled)
    ensures r.history == History.Without(history, {id})
  {
    FinishRemovalAsWritten(s, History.DeleteChat(history, id, s.currentId, uid, ls, quotaOk), pending, uid,
                           newId, greetingId, now, serverNow)
  }

  /** Deleting the active conversation while its save is pending leaves the
      document in the store: the flushed save recreates it right after the
      delete, whatever the store held. */
  lemma DeleteActiveResurrects(s: Session, history: seq<Chat>, u: string, ls: LocalStorage, quotaOk: bool,
                               newId: string, greetingId: string, now: int, serverNow: int, store: Store)
    requires |s.messages| > 1
    ensures var r := DeleteChatAsWritten(s, history, s.currentId, Some(u), ls, quotaOk, true, newId, greetingId,
                                         now, serverNow);
      (u, s.currentId) in ApplyAll(store, r.writes)
  {
    var r := DeleteChatAsWritten(s, history, s.currentId, Some(u), ls, quotaOk, true, newId, greetingId, now, serverNow);
    var save := SaveChat(u, s.currentId, DeriveTitle(s.messages), s.messages, now, serverNow);
    assert r.writes == [Delete(u, s.currentId), save] by {
      assert r.writes == r.writes[..1] + r.writes[1..];
    }
    assert r.writes[1..] == [save];
    assert ApplyAll(store, r.writes) == ApplyAll(Apply(store, r.writes[0]), [save]);
    assert ApplyAll(Apply(store, r.writes[0]), [save]) == Apply(Apply(store, r.writes[0]), save);
  }

  /** `handleDeleteChat(id)` with the corrected ending: the document of the
      deleted conversation is gone and every other document is unchanged,
      whatever the store held. */
  function DeleteChatHandler(s: Session, history: seq<Chat>, id: string, uid: Option<string>, ls: LocalStorage,
                             quotaOk: bool, newId: string, greetingId: string, now: int, serverNow: int): (r: Handled)
    ensures r.history == History.Without(history, {id})
    ensures quotaOk ==> LoadHistory(r.local) == r.history
    ensures id != s.currentId ==> r.session == s
    ensures id == s.currentId ==> r.session.currentId == newId && r.session.messages == FreshMessages(greetingId, now)
    ensures uid.None? ==> r.writes == []
    ensures uid.Some? ==> RemovesExactly(r.writes, uid.value, [id])
  {
    FinishRemoval(s, History.DeleteChat(history, id, s.currentId, uid, ls, quotaOk), uid, newId, greetingId,
                  now, serverNow)
  }

  /** `handleClearAll()` as written. */
  function ClearTodayAsWritten(s: Session, history: seq<Chat>, isToday: int -> bool, uid: Option<string>,
                               ls: LocalStorage, quotaOk: bool, pending: bool, newId: string, greetingId: string,
                               now: int, serverNow: int): (r: Handled)
    ensures r.history == History.Without(history, IdSet(History.TodayHistory(history, isToday)))
  {
    FinishRemovalAsWritten(s, History.ClearToday(history, isToday, s.currentId, uid, ls, quotaOk), pending, uid,
                           newId, greetingId, now, serverNow)
  }

  /** Clearing today while the active conversation is one of today's and its
      save is pending leaves its document in the store. */
  lemma ClearActiveResurrects(s: Session, history: seq<Chat>, isToday: int -> bool, u: string, ls: LocalStorage,
                              quotaOk: bool, newId: string, greetingId: string, now: int, serverNow: int, store: Store)
    requires |s.messages| > 1 && s.currentId in Ids(History.TodayHistory(history, isToday))
    ensures var r := ClearTodayAsWritten(s, history, isToday, Some(u), ls, quotaOk, true, newId, greetingId,
                                         now, serverNow);
      (u, s.currentId) in ApplyAll(store, r.writes)
  {
    var r := ClearTodayAsWritten(s, history, isToday, Some(u), ls, quotaOk, true, newId, greetingId, now, serverNow);
    var removal := History.ClearToday(history, isToday, s.currentId, Some(u), ls, quotaOk);
    var n := |removal.remote|;
    var save := SaveChat(u, s.currentId, DeriveTitle(s.messages), s.messages, now, serverNow);
    assert r.writes == removal.remote + [save] by {
      assert r.writes == r.writes[..n] + r.writes[n..];
    }
    ApplyAllThenSave(store, removal.remote, save);
  }

  /** A save issued after any writes leaves its document in the store. */
  lemma {:induction false} ApplyAllThenSave(store: Store, ws: seq<Write>, save: Write)
    requires save.SetMerge?
    ensures (save.uid, save.chatId) in ApplyAll(store, ws + [save])
    decreases |ws|
  {
    if |ws| == 0 {
      assert ws + [save] == [save];
      assert ApplyAll(store, [save]) == ApplyAll(Apply(store, save), []);
    } else {
      assert (ws + [save])[1..] == ws[1..] + [save];
      ApplyAllThenSave(Apply(store, ws[0]), ws[1..], save);
    }
  }

  /** `handleClearAll()` with the corrected ending: every document of today's
      conversations is gone and every other document is unchanged, whatever
      the store held. */
  function ClearTodayHandler(s: Session, history: seq<Chat>, isToday: int -> bool, uid: Option<string>,
                             ls: LocalStorage, quotaOk: bool, newId: string, greetingId: string,
                             now: int, serverNow: int): (r: Handled)
    ensures r.history == History.Without(history, IdSet(History.TodayHistory(history, isToday)))
    ensures quotaOk ==> LoadHistory(r.local) == r.history
    ensures s.currentId !in Ids(History.TodayHistory(history, isToday)) ==> r.session == s
    ensures s.currentId in Ids(History.TodayHistory(history, isToday)) ==>
      r.session.currentId == newId && r.session.messages == FreshMessages(greetingId, now)
    ensures uid.None? ==> r.writes == []
    ensures uid.Some? ==> RemovesExactly(r.writes, uid.value, Ids(History.TodayHistory(history, isToday)))
  {
    var r := FinishRemoval(s, History.ClearToday(history, isToday, s.currentId, uid, ls, quotaOk), uid, newId,
                           greetingId, now, serverNow);
    if uid.Some? then
      ClearTodayRemoves(uid.value, Ids(History.TodayHistory(history, isToday)));
      r
    else r
  }

  /** Whatever the store held, the writes remove exactly the documents of
      `uid` listed in `ids` and leave every other document as it was. */
  ghost predicate RemovesExactly(ws: seq<Write>, uid: string, ids: seq<string>) {
    forall store: Store, k: Key ::
      && (k in ApplyAll(store, ws) <==> k in store && !(k.0 == uid && k.1 in ids))
      && (k in ApplyAll(store, ws) ==> ApplyAll(store, ws)[k] == store[k])
  }

  /** The batch of "clear today" removes exactly the listed documents. */
  lemma ClearTodayRemoves(uid: string, ids: seq<string>)
    ensures RemovesExactly(ClearTodayChats(uid, ids), uid, ids)
  {
    forall store: Store, k: Key
      ensures k in ApplyAll(store, ClearTodayChats(uid, ids)) <==> k in store && !(k.0 == uid && k.1 in ids)
      ensures k in ApplyAll(store, ClearTodayChats(uid, ids)) ==> ApplyAll(store, ClearTodayChats(uid, ids))[k] == store[k]
    {
      ClearTodayEffect(store, uid, ids, k);
    }
  }
}

=== FILE: stream_decoder.dfy ===
/**
 The client-side reader of the chat endpoint's event stream
 (src/components/chat-interface.tsx, the read loop of `handleSubmit`). Text
 arrives in chunks cut at arbitrary places; a carry-over buffer keeps the
 unterminated remainder, each complete line is trimmed, and only lines that
 start with `data: ` carry a payload. The payload `[DONE]` ends the stream;
 any other payload goes through `JSON.parse` and the lookup of
 `choices[0].delta.content`, abstracted here as the parameter `extract`
 (`None` when parsing or the lookup throws, `Some(c)` otherwise). A non-empty
 `c` is one content delta for the assistant message being streamed.

 This is a simplified reading of the event-stream format of section 9.2 of
 the WHATWG HTML Standard ("Server-sent events"); the model follows the
 program, not the standard.
 */
module StreamDecoder {
  import opened Base
  import opened Text

  /** `JSON.parse(data).choices?.[0]?.delta?.content`, or `None` if that throws. */
  type Extractor = seq<char> -> Option<seq<char>>

  const DataPrefix: seq<char> := "data: "
  const DoneMarker: seq<char> := "[DONE]"

  /** What the decoder makes of one line. */
  datatype LineKind = Ignored | Done | Payload(data: seq<char>)

  /** A line counts only if its trimmed form starts with `data: `; the rest of
      the trimmed line is the payload. Trimming removes trailing white space,
      so a payload is never empty. */
  function Classify(line: seq<char>): (k: LineKind)
    ensures k.Payload? ==> k.data != [] && k.data != DoneMarker
  {
    var t := Trim(line);
    if !StartsWith(t, DataPrefix) then Ignored
    else if t[|DataPrefix|..] == DoneMarker then Done
    else Payload(t[|DataPrefix|..])
  }

  /** The delta an extracted content contributes: nothing when the payload did
      not parse, and nothing when the content is missing or empty. */
  function DeltaOf(content: Option<seq<char>>): (r: seq<seq<char>>)
    ensures |r| <= 1
    ensures |r| == 1 <==> content.Some? && content.value != []
    ensures |r| == 1 ==> r[0] == content.value
  {
    if content.Some? && content.value != [] then [content.value] else []
  }

  /** The outcome of scanning a run of complete lines. */
  datatype Scan = Scan(deltas: seq<seq<char>>, done: bool)

  /** Reference meaning of the inner `for` loop over complete lines: deltas in
      line order, stopping at the first `[DONE]`. */
  function ScanLines(lines: seq<seq<char>>, extract: Extractor): (r: Scan)
    ensures |r.deltas| <= |lines|
    ensures forall i :: 0 <= i < |r.deltas| ==> r.deltas[i] != []
  {
    if |lines| == 0 then Scan([], false)
    else
      var rest := ScanLines(lines[1..], extract);
      match Classify(lines[0])
      case Done => Scan([], true)
      case Ignored => rest
      case Payload(data) => Scan(DeltaOf(extract(data)) + rest.deltas, rest.done)
  }

  /** Scanning a line followed by more lines. */
  lemma ScanCons(line: seq<char>, rest: seq<seq<char>>, extract: Extractor)
    ensures ScanLines([line] + rest, extract) == match Classify(line)
      case Done => Scan([], true)
      case Ignored => ScanLines(rest, extract)
      case Payload(data) => Scan(DeltaOf(extract(data)) + ScanLines(rest, extract).deltas, ScanLines(rest, extract).done)
  {
    assert ([line] + rest)[0] == line;
    assert ([line] + rest)[1..] == rest;
  }

  /** Scanning two runs of lines one after the other: a `[DONE]` in the first
      run hides the second run entirely; otherwise the deltas add up. */
  lemma {:induction false} ScanAppend(a: seq<seq<char>>, b: seq<seq<char>>, extract: Extractor)
    ensures ScanLines(a, extract).done ==> ScanLines(a + b, extract) == ScanLines(a, extract)
    ensures !ScanLines(a, extract).done ==>
      ScanLines(a + b, extract)
      == Scan(ScanLines(a, extract).deltas + ScanLines(b, extract).deltas, ScanLines(b, extract).done)
  {
    if |a| == 0 {
      assert a + b == b;
    } else {
      var line, more := a[0], a[1..];
      assert a == [line] + more;
      assert a + b == [line] + (more + b);
      ScanAppend(more, b, extract);
      ScanAppendCons(line, more, b, extract);
    }
  }

  /** The step of `ScanAppend`: putting one line in front of the first run. */
  lemma ScanAppendCons(line: seq<char>, more: seq<seq<char>>, b: seq<seq<char>>, extract: Extractor)
    requires ScanLines(more, extract).done ==> ScanLines(more + b, extract) == ScanLines(more, extract)
    requires !ScanLines(more, extract).done ==>
      ScanLines(more + b, extract)
      == Scan(ScanLines(more, extract).deltas + ScanLines(b, extract).deltas, ScanLines(b, extract).done)
    ensures ScanLines([line] + more, extract).done ==>
      ScanLines([line] + (more + b), extract) == ScanLines([line] + more, extract)
    ensures !ScanLines([line] + more, extract).done ==>
      ScanLines([line] + (more + b), extract)
      == Scan(ScanLines([line] + more, extract).deltas + ScanLines(b, extract).deltas, ScanLines(b, extract).done)
  {
    ScanCons(line, more, extract);
    ScanCons(line, more + b, extract);
    var k := Classify(line);
    if k.Payload? && !ScanLines(more, extract).done {
      AppendAssoc(DeltaOf(extract(k.data)), ScanLines(more, extract).deltas, ScanLines(b, extract).deltas);
    }
  }

  /** Concatenation of sequences is associative. */
  lemma AppendAssoc<T>(a: seq<T>, b: seq<T>, c: seq<T>)
    ensures a + b + c == a + (b + c)
  {
  }

  /** A payload that fails to parse is skipped, and the lines after it are
      still processed; so is a line that is not a `data: ` line. */
  lemma SkippedLine(line: seq<char>, rest: seq<seq<char>>, extract: Extractor)
    requires Classify(line) == Ignored || (Classify(line).Payload? && extract(Classify(line).data).None?)
    ensures ScanLines([line] + rest, extract) == ScanLines(rest, extract)
  {
    assert ([line] + rest)[1..] == rest;
  }

  /** Once a `[DONE]` line is reached, nothing after it contributes. */
  lemma DoneHidesRest(before: seq<seq<char>>, line: seq<char>, after: seq<seq<char>>, extract: Extractor)
    requires Classify(line) == Done
    requires !ScanLines(before, extract).done
    ensures ScanLines(before + [line] + after, extract) == Scan(ScanLines(before, extract).deltas, true)
  {
    ScanAppend(before, [line] + after, extract);
    assert before + [line] + after == before + ([line] + after);
    assert ([line] + after)[0] == line;
  }

  /** The step after the read loop: a leftover `data: ` line gets one more
      decode attempt unless its payload is empty or `[DONE]`. */
  function FinalAttempt(buffer: seq<char>, extract: Extractor): seq<seq<char>> {
    var t := Trim(buffer);
    if StartsWith(t, DataPrefix) then
      var data := t[|DataPrefix|..];
      if data != [] && data != DoneMarker then DeltaOf(extract(data)) else []
    else []
  }

  /** The leftover is decoded exactly as if it had been a complete line. */
  lemma FinalAttemptAsLine(buffer: seq<char>, extract: Extractor)
    ensures FinalAttempt(buffer, extract) == ScanLines([buffer], extract).deltas
  {
    assert [buffer][1..] == [];
  }

  /** What the program yields for a stream whose text, read in full up to the
      chunk where it stops, is `text`: the deltas of its complete lines up to
      any `[DONE]`, then the final attempt on what is left after the last line
      feed. */
  function DecodeWhole(text: seq<char>, extract: Extractor): seq<seq<char>> {
    ScanLines(Lines(text), extract).deltas + FinalAttempt(Tail(text), extract)
  }

  /** Without a `[DONE]` among the complete lines, the stream decodes as the
      plain split of its text on line feeds, the last piece included. */
  lemma DecodeWholeWithoutDone(text: seq<char>, extract: Extractor)
    requires !ScanLines(Lines(text), extract).done
    ensures DecodeWhole(text, extract) == ScanLines(Split(text), extract).deltas
  {
    var pieces := Split(text);
    assert pieces == Lines(text) + [Tail(text)];
    ScanAppend(Lines(text), [Tail(text)], extract);
    FinalAttemptAsLine(Tail(text), extract);
  }

  /** A `[DONE]` reached in the text read so far stays reached however much
      more text follows. */
  lemma DonePersists(x: seq<char>, y: seq<char>, extract: Extractor)
    requires ScanLines(Lines(x), extract).done
    ensures ScanLines(Lines(x + y), extract) == ScanLines(Lines(x), extract)
  {
    LinesAppend(x, y);
    ScanAppend(Lines(x), Lines(Tail(x) + y), extract);
  }

  /** One turn of the read loop: appending `text` to the text read so far
      hands out the complete lines of the carry-over buffer plus `text`. */
  lemma FeedStep(before: seq<char>, text: seq<char>, extract: Extractor)
    requires !ScanLines(Lines(before), extract).done
    ensures Tail(before + text) == Tail(Tail(before) + text)
    ensures var chunkScan := ScanLines(Lines(Tail(before) + text), extract);
      ScanLines(Lines(before + text), extract)
      == Scan(ScanLines(Lines(before), extract).deltas + chunkScan.deltas, chunkScan.done)
  {
    LinesAppend(before, text);
    ScanAppend(Lines(before), Lines(Tail(before) + text), extract);
  }

  /** Scanning a single line. */
  lemma ScanSingle(line: seq<char>, extract: Extractor)
    ensures ScanLines([line], extract) == match Classify(line)
      case Done => Scan([], true)
      case Ignored => Scan([], false)
      case Payload(data) => Scan(DeltaOf(extract(data)), false)
  {
    ScanCons(line, [], extract);
    assert [line] + [] == [line];
  }

  /** One line further into a run whose scan has not stopped yet, when that
      line is not `[DONE]`. */
  lemma ScanNextLine(lines: seq<seq<char>>, j: nat, extract: Extractor)
    requires j < |lines| && !ScanLines(lines[..j], extract).done
    requires Classify(lines[j]) != Done
    ensures Classify(lines[j]).Payload? ==>
      ScanLines(lines[..j + 1], extract)
      == Scan(ScanLines(lines[..j], extract).deltas + DeltaOf(extract(Classify(lines[j]).data)), false)
    ensures Classify(lines[j]) == Ignored ==>
      ScanLines(lines[..j + 1], extract) == ScanLines(lines[..j], extract)
  {
    var pre, line := lines[..j], lines[j];
    assert lines[..j + 1] == pre + [line];
    ScanAppend(pre, [line], extract);
    ScanSingle(line, extract);
  }

  /** A `[DONE]` line ends the scan of the whole run. */
  lemma ScanDoneLine(lines: seq<seq<char>>, j: nat, extract: Extractor)
    requires j < |lines| && !ScanLines(lines[..j], extract).done
    requires Classify(lines[j]) == Done
    ensures ScanLines(lines, extract) == Scan(ScanLines(lines[..j], extract).deltas, true)
  {
    var pre, rest := lines[..j], lines[j..];
    assert lines == pre + rest;
    assert rest[0] == lines[j];
    assert ScanLines(rest, extract) == Scan([], true);
    ScanAppend(pre, rest, extract);
    assert ScanLines(pre, extract).deltas + [] == ScanLines(pre, extract).deltas;
  }

  /** The inner `for` loop over one chunk's complete lines, with its `break`. */
  method ScanChunkLines(lines: seq<seq<char>>, extract: Extractor) returns (deltas: seq<seq<char>>, sawDone: bool)
    ensures Scan(deltas, sawDone) == ScanLines(lines, extract)
  {
    deltas := [];
    sawDone := false;
    var j := 0;
    while j < |lines| && !sawDone
      invariant 0 <= j <= |lines|
      invariant !sawDone ==> ScanLines(lines[..j], extract) == Scan(deltas, false)
      invariant sawDone ==> ScanLines(lines, extract) == Scan(deltas, true)
      decreases |lines| - j, if sawDone then 0 else 1
    {
      match Classify(lines[j]) {
        case Done =>
          ScanDoneLine(lines, j, extract);
          sawDone := true;
        case Payload(data) =>
          ScanNextLine(lines, j, extract);
          deltas := deltas + DeltaOf(extract(data));
          j := j + 1;
        case Ignored =>
          ScanNextLine(lines, j, extract);
          j := j + 1;
      }
    }
    if !sawDone {
      assert lines[..j] == lines;
    }
  }

  /** How the read loop ended. */
  datatype StreamEnd = Finished | TransportError

  /** The body of the read loop for one delivered text: append it to the
      carry-over buffer, split on line feeds, keep the last piece as the new
      buffer and scan the complete lines before it. */
  method FeedChunk(buffer: seq<char>, text: seq<char>, extract: Extractor)
    returns (lineDeltas: seq<seq<char>>, sawDone: bool, next: seq<char>)
    ensures '\n' !in next && next == Tail(buffer + text)
    ensures Scan(lineDeltas, sawDone) == ScanLines(Lines(buffer + text), extract)
  {
    var joined := buffer + text;
    var segments := Split(joined);
    next := segments[|segments| - 1];
    var lines := segments[..|segments| - 1];
    lineDeltas, sawDone := ScanChunkLines(lines, extract);
  }

  /** The text of the first `k` chunks, one after the other. */
  function TextRead(chunks: seq<seq<char>>, k: nat): seq<char>
    requires k <= |chunks|
  {
    Concat(chunks[..k])
  }

  /** Reading one more chunk extends the text read by that chunk. */
  lemma TextReadNext(chunks: seq<seq<char>>, k: nat)
    requires k < |chunks|
    ensures TextRead(chunks, k + 1) == TextRead(chunks, k) + chunks[k]
  {
    assert chunks[..k + 1] == chunks[..k] + [chunks[k]];
    ConcatAppend(chunks[..k], [chunks[k]]);
  }

  /** The `while (!done)` read loop. `chunks` are the texts the reader
      delivers; after them the next read reports the end of the body, or
      throws when `readFails`. Returns the deltas of the complete lines, how
      many chunks were read, the carry-over buffer and how the loop ended.
      Reading stops at the first chunk whose complete lines reach `[DONE]`. */
  method ReadLoop(chunks: seq<seq<char>>, readFails: bool, extract: Extractor)
    returns (deltas: seq<seq<char>>, read: nat, buffer: seq<char>, end: StreamEnd)
    ensures read <= |chunks|
    ensures '\n' !in buffer && buffer == Tail(TextRead(chunks, read))
    ensures deltas == ScanLines(Lines(TextRead(chunks, read)), extract).deltas
    ensures read < |chunks| ==> ScanLines(Lines(TextRead(chunks, read)), extract).done
    ensures read > 0 ==> !ScanLines(Lines(TextRead(chunks, read - 1)), extract).done
    ensures end == TransportError <==>
      readFails && read == |chunks| && !ScanLines(Lines(TextRead(chunks, read)), extract).done
  {
    buffer := [];
    var done := false;
    deltas := [];
    read := 0;
    end := Finished;
    while !done
      invariant read <= |chunks| && end == Finished
      invariant '\n' !in buffer && buffer == Tail(TextRead(chunks, read))
      invariant deltas == ScanLines(Lines(TextRead(chunks, read)), extract).deltas
      invariant !done ==> !ScanLines(Lines(TextRead(chunks, read)), extract).done
      invariant done ==> ScanLines(Lines(TextRead(chunks, read)), extract).done || (read == |chunks| && !readFails)
      invariant read > 0 ==> !ScanLines(Lines(TextRead(chunks, read - 1)), extract).done
      decreases |chunks| - read, if done then 0 else 1
    {
      var failed;
      read, buffer, deltas, done, failed := ReadTurn(chunks, readFails, extract, read, buffer, deltas);
      if failed {
        end := TransportError;
        break;
      }
    }
  }

  /** One turn of the read loop: the next read delivers a chunk, reports the
      end of the body (an empty text, after which the loop stops), or throws. */
  method ReadTurn(chunks: seq<seq<char>>, readFails: bool, extract: Extractor,
                  read: nat, buffer: seq<char>, deltas: seq<seq<char>>)
    returns (nextRead: nat, nextBuffer: seq<char>, nextDeltas: seq<seq<char>>, done: bool, failed: bool)
    requires read <= |chunks|
    requires buffer == Tail(TextRead(chunks, read))
    requires deltas == ScanLines(Lines(TextRead(chunks, read)), extract).deltas
    requires !ScanLines(Lines(TextRead(chunks, read)), extract).done
    ensures failed <==> read == |chunks| && readFails
    ensures nextRead == if read < |chunks| then read + 1 else read
    ensures failed ==> nextBuffer == buffer && nextDeltas == deltas
    ensures !failed ==> '\n' !in nextBuffer && nextBuffer == Tail(TextRead(chunks, nextRead))
    ensures !failed ==> nextDeltas == ScanLines(Lines(TextRead(chunks, nextRead)), extract).deltas
    ensures !failed ==> (done <==> ScanLines(Lines(TextRead(chunks, nextRead)), extract).done || read == |chunks|)
  {
    ghost var before := TextRead(chunks, read);
    var text: seq<char>;
    nextRead := read;
    if read < |chunks| {
      text := chunks[read];
      TextReadNext(chunks, read);
      nextRead := read + 1;
    } else if readFails {
      return read, buffer, deltas, false, true;
    } else {
      text := [];
      assert before + text == before;
    }
    failed := false;
    FeedStep(before, text, extract);
    var lineDeltas, sawDone;
    lineDeltas, sawDone, nextBuffer := FeedChunk(buffer, text, extract);
    nextDeltas := deltas + lineDeltas;
    done := sawDone || read == |chunks|;
  }

  /** The read loop followed by the trailing-buffer step. Returns the deltas
      in order, how many chunks were read, the carry-over buffer at the end
      and how the loop ended.

      The deltas depend only on the text read, not on where it was cut. As in
      the program, the unterminated remainder of the chunk holding `[DONE]`
      is still given the final attempt; after a transport error there is no
      final attempt. */
  method Decode(chunks: seq<seq<char>>, readFails: bool, extract: Extractor)
    returns (deltas: seq<seq<char>>, read: nat, rest: seq<char>, end: StreamEnd)
    ensures read <= |chunks|
    ensures '\n' !in rest && rest == Tail(TextRead(chunks, read))
    ensures read < |chunks| ==> ScanLines(Lines(TextRead(chunks, read)), extract).done
    ensures read > 0 ==> !ScanLines(Lines(TextRead(chunks, read - 1)), extract).done
    ensures end == Finished ==> deltas == DecodeWhole(TextRead(chunks, read), extract)
    ensures end == TransportError <==> readFails && read == |chunks| && !ScanLines(Lines(Concat(chunks)), extract).done
    ensures end == TransportError ==> deltas == ScanLines(Lines(Concat(chunks)), extract).deltas
    ensures end == Finished && !ScanLines(Lines(Concat(chunks)), extract).done ==>
      read == |chunks| && deltas == DecodeWhole(Concat(chunks), extract)
  {
    deltas, read, rest, end := ReadLoop(chunks, readFails, extract);
    if end == Finished {
      deltas := deltas + FinalAttempt(rest, extract);
    }
    WholeTextRead(chunks, read, extract);
  }

  /** Reading stopped early only because of a `[DONE]`, which the whole text
      then also reaches; having read every chunk, the text read is the whole
      text. */
  lemma WholeTextRead(chunks: seq<seq<char>>, read: nat, extract: Extractor)
    requires read <= |chunks|
    requires read < |chunks| ==> ScanLines(Lines(TextRead(chunks, read)), extract).done
    ensures read == |chunks| ==> TextRead(chunks, read) == Concat(chunks)
    ensures read < |chunks| ==> ScanLines(Lines(Concat(chunks)), extract).done
  {
    ConcatSplitAt(chunks, read);
    if read < |chunks| {
      DoneReachesWhole(TextRead(chunks, read), Concat(chunks[read..]), Concat(chunks), extract);
    } else {
      assert chunks[..read] == chunks;
    }
  }

  lemma DoneReachesWhole(x: seq<char>, y: seq<char>, whole: seq<char>, extract: Extractor)
    requires whole == x + y
    requires ScanLines(Lines(x), extract).done
    ensures ScanLines(Lines(whole), extract).done
  {
    DonePersists(x, y, extract);
  }

  /** The sentinel's reach is limited to the chunk it arrives in: a payload
      cut off after `[DONE]` in the same chunk is still decoded by the final
      attempt, while the same payload in a later chunk is never read. */
  lemma DoneThenLeftover(extract: Extractor)
    requires extract("x") == Some("x")
    ensures DecodeWhole("data: [DONE]\ndata: x", extract) == ["x"]
    ensures DecodeWhole("data: [DONE]\n", extract) == []
  {
    var done: seq<char> := "data: [DONE]";
    var left: seq<char> := "data: x";
    ClassifyDone();
    ClassifyX();
    assert "data: [DONE]\ndata: x" == done + (['\n'] + left);
    assert "data: [DONE]\n" == done + (['\n'] + []);
    DoneLineThenRest(done, left, extract);
    DoneLineThenRest(done, [], extract);
    assert FinalAttempt(left, extract) == ["x"];
  }

  /** A `[DONE]` line followed by an unterminated remainder decodes to the
      final attempt on that remainder alone. */
  lemma DoneLineThenRest(done: seq<char>, left: seq<char>, extract: Extractor)
    requires Classify(done) == Done && '\n' !in done && '\n' !in left
    ensures DecodeWhole(done + (['\n'] + left), extract) == FinalAttempt(left, extract)
  {
    SplitPrefix(done, left);
    SplitNoNewline(left);
    var text := done + (['\n'] + left);
    assert Split(text) == [done, left];
    assert Lines(text) == [done];
    assert Tail(text) == left;
    assert ScanLines([done], extract) == Scan([], true);
  }

  lemma ClassifyDone()
    ensures Classify("data: [DONE]") == Done
  {
    var s: seq<char> := "data: [DONE]";
    assert !IsSpace(s[0]) && !IsSpace(s[|s| - 1]);
    assert TrimStart(s) == s;
    assert TrimEnd(s) == s;
    assert s[..6] == DataPrefix;
    assert s[6..] == DoneMarker;
  }

  lemma ClassifyX()
    ensures Classify("data: x") == Payload("x")
    ensures Trim("data: x") == "data: x"
  {
    var s: seq<char> := "data: x";
    assert !IsSpace(s[0]) && !IsSpace(s[|s| - 1]);
    assert TrimStart(s) == s;
    assert TrimEnd(s) == s;
    assert s[..6] == DataPrefix;
    assert s[6..] == "x";
  }
}

=== FILE: text.dfy ===
/**
 The handful of JavaScript string operations the stream decoder relies on:
 `String.prototype.trim`, `startsWith` and `split("\n")`, written over
 `seq<char>`.
 */
module Text {

  /** The code points `String.prototype.trim` strips: ECMAScript WhiteSpace
      (tab, vertical tab, form feed, space, no-break space, zero-width
      no-break space and the other Unicode `Zs` characters) and LineTerminator
      (line feed, carriage return, line and paragraph separators), sections
      12.2 and 12.3 of ECMA-262. */
  predicate IsSpace(c: char) {
    || c == '\t' || c == '\n' || c == '\U{000B}' || c == '\U{000C}' || c == '\r'
    || c == ' ' || c == '\U{00A0}' || c == '\U{1680}'
    || ('\U{2000}' <= c <= '\U{200A}')
    || c == '\U{2028}' || c == '\U{2029}' || c == '\U{202F}' || c == '\U{205F}'
    || c == '\U{3000}' || c == '\U{FEFF}'
  }

  /** `s` without its leading white space. */
  function TrimStart(s: seq<char>): (r: seq<char>)
    ensures |r| <= |s|
    ensures |r| > 0 ==> !IsSpace(r[0])
  {
    if |s| > 0 && IsSpace(s[0]) then TrimStart(s[1..]) else s
  }

  /** `s` without its trailing white space. */
  function TrimEnd(s: seq<char>): (r: seq<char>)
    ensures |r| <= |s|
    ensures |r| > 0 ==> !IsSpace(r[|r| - 1])
  {
    if |s| > 0 && IsSpace(s[|s| - 1]) then TrimEnd(s[..|s| - 1]) else s
  }

  /** `TrimStart` removes a prefix made only of white space. */
  lemma {:induction false} TrimStartSuffix(s: seq<char>)
    ensures var r := TrimStart(s);
      r == s[|s| - |r|..] && forall i :: 0 <= i < |s| - |r| ==> IsSpace(s[i])
  {
    if |s| > 0 && IsSpace(s[0]) {
      TrimStartSuffix(s[1..]);
    }
  }

  /** `TrimEnd` removes a suffix made only of white space. */
  lemma {:induction false} TrimEndPrefix(s: seq<char>)
    ensures var r := TrimEnd(s);
      r == s[..|r|] && forall i :: |r| <= i < |s| ==> IsSpace(s[i])
  {
    if |s| > 0 && IsSpace(s[|s| - 1]) {
      TrimEndPrefix(s[..|s| - 1]);
    }
  }

  /** `s.trim()`: the middle of `s` once the white space at both ends is
      removed; neither end of the result is white space. */
  function Trim(s: seq<char>): (r: seq<char>)
    ensures |r| <= |s|
    ensures |r| > 0 ==> !IsSpace(r[0]) && !IsSpace(r[|r| - 1])
    ensures exists lead: nat :: TrimmedAt(s, r, lead)
  {
    var t := TrimStart(s);
    TrimStartSuffix(s);
    TrimEndPrefix(t);
    var r := TrimEnd(t);
    var lead := |s| - |t|;
    assert r == s[lead..lead + |r|];
    assert forall i :: lead + |r| <= i < |s| ==> s[i] == t[i - lead];
    assert TrimmedAt(s, r, lead);
    r
  }

  /** `r` is `s` with `lead` characters of white space removed before it and
      only white space after it. */
  predicate TrimmedAt(s: seq<char>, r: seq<char>, lead: nat) {
    && lead + |r| <= |s| && r == s[lead..lead + |r|]
    && (forall i :: 0 <= i < lead ==> IsSpace(s[i]))
    && (forall i :: lead + |r| <= i < |s| ==> IsSpace(s[i]))
  }

  /** Trimming a string that already has no white space at either end is the
      identity; in particular trimming is idempotent. */
  lemma TrimIdempotent(s: seq<char>)
    ensures Trim(Trim(s)) == Trim(s)
  {
    var t := Trim(s);
    if |t| > 0 {
      assert TrimStart(t) == t;
      assert TrimEnd(t) == t;
    }
  }

  /** `s.startsWith(p)`. */
  predicate StartsWith(s: seq<char>, p: seq<char>) {
    |p| <= |s| && s[..|p|] == p
  }

  /** The pieces of `s.split("\n")`: never empty, and no piece holds a line feed. */
  function Split(s: seq<char>): (r: seq<seq<char>>)
    ensures |r| >= 1
    ensures forall i :: 0 <= i < |r| ==> '\n' !in r[i]
  {
    if |s| == 0 then [[]]
    else if s[0] == '\n' then [[]] + Split(s[1..])
    else
      var rest := Split(s[1..]);
      [[s[0]] + rest[0]] + rest[1..]
  }

  /** `segments.join("\n")`, the inverse of `Split`. */
  function Join(segments: seq<seq<char>>): seq<char> {
    if |segments| == 0 then []
    else if |segments| == 1 then segments[0]
    else segments[0] + ['\n'] + Join(segments[1..])
  }

  /** Splitting loses nothing: joining the pieces back gives the input. */
  lemma {:induction false} JoinSplit(s: seq<char>)
    ensures Join(Split(s)) == s
  {
    if |s| > 0 {
      JoinSplit(s[1..]);
      var rest := Split(s[1..]);
      if s[0] == '\n' {
        assert Split(s) == [[]] + rest;
      } else if |rest| == 1 {
        assert Split(s) == [[s[0]] + rest[0]];
      } else {
        assert Join(rest) == rest[0] + ['\n'] + Join(rest[1..]);
        assert Split(s) == [[s[0]] + rest[0]] + rest[1..];
        assert Split(s)[1..] == rest[1..];
      }
    }
  }

  /** A string with no line feed splits into itself alone. */
  lemma {:induction false} SplitNoNewline(s: seq<char>)
    requires '\n' !in s
    ensures Split(s) == [s]
  {
    if |s| > 0 {
      assert s[0] != '\n' && '\n' !in s[1..];
      SplitNoNewline(s[1..]);
      assert [s[0]] + s[1..] == s;
    }
  }

  /** Joining line-feed-free pieces and splitting again gives the pieces back. */
  lemma {:induction false} SplitJoin(segments: seq<seq<char>>)
    requires |segments| >= 1
    requires forall i :: 0 <= i < |segments| ==> '\n' !in segments[i]
    ensures Split(Join(segments)) == segments
  {
    if |segments| == 1 {
      SplitNoNewline(segments[0]);
    } else {
      SplitJoin(segments[1..]);
      SplitPrefix(segments[0], Join(segments[1..]));
      assert Join(segments) == segments[0] + (['\n'] + Join(segments[1..]));
    }
  }

  /** Splitting `p + "\n" + s` where `p` has no line feed gives `p` first. */
  lemma {:induction false} SplitPrefix(p: seq<char>, s: seq<char>)
    requires '\n' !in p
    ensures Split(p + (['\n'] + s)) == [p] + Split(s)
  {
    if |p| == 0 {
      assert p + (['\n'] + s) == ['\n'] + s;
    } else {
      assert (p + (['\n'] + s))[1..] == p[1..] + (['\n'] + s);
      SplitPrefix(p[1..], s);
      assert [p[0]] + p[1..] == p;
    }
  }

  /** The complete lines of `s`: every piece but the last, each of which was
      followed by a line feed. */
  function Lines(s: seq<char>): seq<seq<char>> {
    var pieces := Split(s);
    pieces[..|pieces| - 1]
  }

  /** The unterminated remainder of `s` after its last line feed. */
  function Tail(s: seq<char>): (r: seq<char>)
    ensures '\n' !in r
  {
    var pieces := Split(s);
    pieces[|pieces| - 1]
  }

  /** One step of `Split`: how a leading character extends the pieces. */
  lemma SplitCons(c: char, s: seq<char>)
    ensures c == '\n' ==> Split([c] + s) == [[]] + Split(s)
    ensures c != '\n' ==> Split([c] + s) == [[c] + Split(s)[0]] + Split(s)[1..]
  {
    assert ([c] + s)[1..] == s;
  }

  /** Splitting a concatenation: the pieces of `x` except its last, then the
      pieces of that last piece continued by `y`. This is why a carry-over
      buffer makes line framing independent of where a text is cut. */
  lemma {:induction false} SplitAppend(x: seq<char>, y: seq<char>)
    ensures Split(x + y) == Lines(x) + Split(Tail(x) + y)
  {
    if |x| == 0 {
      assert x + y == y;
    } else {
      var c, x' := x[0], x[1..];
      assert x == [c] + x';
      assert x + y == [c] + (x' + y);
      var sx := Split(x');
      SplitAppend(x', y);
      var r := Split(x' + y);
      assert r == sx[..|sx| - 1] + Split(sx[|sx| - 1] + y);
      SplitCons(c, x');
      SplitCons(c, x' + y);
      if c != '\n' {
        SplitAppendChar(c, sx, r, y);
      }
    }
  }

  /** The case of `SplitAppend` where the first character is not a line feed. */
  lemma SplitAppendChar(c: char, sx: seq<seq<char>>, r: seq<seq<char>>, y: seq<char>)
    requires c != '\n' && |sx| >= 1
    requires r == sx[..|sx| - 1] + Split(sx[|sx| - 1] + y)
    ensures [[c] + r[0]] + r[1..]
         == ([[c] + sx[0]] + sx[1..])[..|sx| - 1]
            + Split(([[c] + sx[0]] + sx[1..])[|sx| - 1] + y)
  {
    if |sx| == 1 {
      var t := [c] + sx[0];
      assert t + y == [c] + (sx[0] + y);
      SplitCons(c, sx[0] + y);
    } else {
      assert r[0] == sx[0];
      assert r[1..] == sx[1..|sx| - 1] + Split(sx[|sx| - 1] + y);
    }
  }

  /** The framing step of a carry-over buffer: the complete lines of
      `x + y` are those of `x` followed by those of `Tail(x) + y`, and the
      remainder is the remainder of `Tail(x) + y`. */
  lemma LinesAppend(x: seq<char>, y: seq<char>)
    ensures Lines(x + y) == Lines(x) + Lines(Tail(x) + y)
    ensures Tail(x + y) == Tail(Tail(x) + y)
  {
    SplitAppend(x, y);
    var s := Split(Tail(x) + y);
    assert Split(x + y) == Lines(x) + s;
    assert (Lines(x) + s)[..|Lines(x) + s| - 1] == Lines(x) + s[..|s| - 1];
  }

  /** Text without a line feed is all remainder and no complete line. */
  lemma NoNewlineNoLines(s: seq<char>)
    requires '\n' !in s
    ensures Lines(s) == [] && Tail(s) == s
  {
    SplitNoNewline(s);
  }
}
